=== FILE: README.md ===
# VK Teams bot relay — a Dafny model

This project models the event relay at the core of the VK Teams bot with N8N integration
(`python-app/app/`). The bot long-polls the VK Teams Bot API for events. It moves a cursor to
the largest event id it has seen and records every chat that sends a plain message in an
active-chat registry. Plain messages and button presses go to the N8N webhook through the
forwarding bridge. The bot answers `/start`, `/help`, `/status` and plain text in the chat.
In the other direction, the API server accepts messages from N8N and delivers them to a chat.
Its read-only endpoints report on the registry.

Every network exchange is an input. An HTTP outcome is a status with a body that parses as
JSON or not, or a raised exception (`Http.Outcome`). The clock is an input too. Each event
gets one clock reading and one answer to its webhook post (`Relay.Effects`), and a run is
a sequence of poll answers and interrupts (`RelayProperties.Tick`). All state is immutable:
each operation returns the new state together with the list of sends and posts it asks for
(`Relay.Action`).

Modules, one per component:

- `Wrappers`, `Http`, `Settings`: option type, abstract HTTP outcomes, configuration values.
- `Text`: Python's `str.strip` (whitespace as `str.isspace` defines it), `startswith`, and
  decimal rendering of a count, with its read-back.
- `Events`: an event as the loop sees it. A missing JSON key is `None`, and the accessors
  apply the defaults the code uses.
- `Registry`: the `active_chats` map, its upsert, and the sum of message counts.
- `WebhookHandler`: `webhook_handler.py`, covering payload normalisation, the post and its
  counters, inbound acceptance and the stats report.
- `ChatClient`: `get_events` and `send_text` of `vk_teams_bot.py`.
- `Commands`: classification of a message text, and the replies of the current class.
  `Commands.BotClass` holds what differs between the two bot classes.
- `LegacyBot`: the older class of `bot.py`, with its texts, its keyboard-less `send_text`,
  and no button handling.
- `Relay`: one event and one batch of `polling_loop`, `handle_message`,
  `handle_callback_query`, `stop`.
- `RelayProperties`: whole runs of the loop, and per-event promises.
- `Gateway`: `api_server.py`, covering the `/api/webhook` decision and the `/`, `/health`,
  `/chats` and `/api/stats` views.

## Model

| member | source | states |
|---|---|---|
| `Text.Strip` | python-app/app/vk_teams_bot.py:122-129 | the result is the slice of the input between the leading and the trailing whitespace; everything cut off is whitespace, and a non-empty result starts and ends with a non-space |
| `Text.StripKeepsTrimmed` | python-app/app/vk_teams_bot.py:129 | a name that already has no surrounding whitespace is left as it is |
| `Text.StripIdempotent` | python-app/app/vk_teams_bot.py:129 | stripping twice is stripping once |
| `Text.NatToStringRoundTrip` | python-app/app/vk_teams_bot.py:161 | the decimal rendering of the chat count reads back as the same number |
| `Text.NumberReadsBack` | python-app/app/vk_teams_bot.py:159-164 | a number written between a prefix and a line break is exactly the run of digits after the prefix |
| `Events.KindsExclusive` | python-app/app/vk_teams_bot.py:218-223 | no event is both routed as a plain message and as a button press |
| `Registry.Upsert` | python-app/app/vk_teams_bot.py:128-133 | recording a message adds the chat if it is new, raises its count by one (from 0 for a new chat), sets its sender fields and time, and leaves every other chat's entry and count alone |
| `Registry.SumCountsRemove` | python-app/app/api_server.py:141 | the total over the registry does not depend on the order the entries are summed in |
| `Registry.UpsertAddsOne` | python-app/app/vk_teams_bot.py:132 | recording one message raises the registry's total message count by exactly one |
| `Registry.UpsertKeepsWellFormed` | python-app/app/vk_teams_bot.py:132 | after an upsert every entry still has at least one message |
| `Registry.ChatsBoundTotal` | python-app/app/api_server.py:141-151 | in a registry where every chat has a message there are never more chats than messages |
| `Registry.TotalMessages` | python-app/app/api_server.py:141 | the loop over the registry computes the order-independent sum of the message counts |
| `WebhookHandler.Normalize` | python-app/app/webhook_handler.py:44-66 | the outbound payload has source `vk_teams`. Its type defaults to `new_message`. Its chat id comes from the pressed message for `callbackQuery` and from the chat otherwise. The user name is the stripped first and last name. The text, user id, message id and timestamp are copied from the event, with empty text and ids and timestamp 0 when missing. The callback data is passed through as it is |
| `WebhookHandler.SendToWebhook` | python-app/app/webhook_handler.py:36-95 | with no URL nothing is posted, the result is false and the handler is unchanged. With a URL the normalised payload is posted. The result is true exactly when the answer is status 200, and only then does the sent counter go up by one with its time set. The URL is never changed |
| `WebhookHandler.ProcessIncoming` | python-app/app/webhook_handler.py:97-112 | every message is accepted, whatever its fields. The record echoes chat id, message and type with the message's length. The received counter goes up by one with its time set, and the sent side is untouched |
| `WebhookHandler.GetWebhookStats` | python-app/app/webhook_handler.py:122-129 | configured exactly when the URL is non-empty. The report holds the URL or `Not configured`, and a copy of the counters |
| `ChatClient.GetEvents` | python-app/app/vk_teams_bot.py:37-58 | a parsed body comes back exactly for a 200 answer whose body is JSON, and it is that body |
| `ChatClient.FetchedBatch` | python-app/app/vk_teams_bot.py:205-209 | the loop iterates over exactly the `events` list of a successful JSON answer, and over nothing after any failure |
| `ChatClient.Delivered` | python-app/app/vk_teams_bot.py:92-111 | a send succeeds exactly when the answer is status 200 and the body is either not JSON or an object whose `ok` is true; a missing `ok`, any other status and any exception mean failure |
| `ChatClient.SendText` | python-app/app/vk_teams_bot.py:60-111 | a keyboard that is not JSON fails the send before anything is posted. An `inlineKeyboard` without a length (a number, boolean or null) raises out of the send before anything is posted. Otherwise the chat id and text are posted, with the re-serialised `inlineKeyboard` when there is one. The result is the classification of the answer, and the send does not raise |
| `Commands.Classify` | python-app/app/vk_teams_bot.py:139-170 | every text falls in exactly one case: empty, exactly `/start`, `/help` or `/status`, any other text not starting with `/` (echo), or any other text starting with `/` (unknown) |
| `Commands.Reply` | python-app/app/vk_teams_bot.py:144-170 | a reply exists exactly for the three commands and for echo text. It is the welcome text, the help text, the status summary for the given chat count, or the echo prefix followed by the text |
| `Commands.CountReadsBack` | python-app/app/vk_teams_bot.py:159-161 | a summary laid out like `/status` shows exactly the chat count it was built from |
| `Commands.StatusShowsCount` | python-app/app/vk_teams_bot.py:158-165 | the current class's `/status` summary reports the registry size it is given |
| `LegacyBot.StatusShowsCount` | python-app/app/bot.py:143-152 | the older class's `/status` summary opens the same way and reports the registry size it is given |
| `LegacyBot.SendText` | python-app/app/bot.py:59-90 | the older send always posts the chat id and text, never raises, and succeeds under exactly the same conditions as the newer one |
| `LegacyBot.SendAgreesWithCurrent` | python-app/app/bot.py:59-90 | without a keyboard the two classes' sends post the same form and return the same result |
| `Relay.GetActiveChats` | python-app/app/vk_teams_bot.py:241-243 | the copy holds exactly the registry's chats, each with the same entry |
| `Relay.Stop` | python-app/app/vk_teams_bot.py:237-239 | stopping clears the run flag and keeps the cursor, the registry and the handler |
| `Relay.ForwardActions` | python-app/app/vk_teams_bot.py:136-137 | exactly when the bot has a handler with a URL, one webhook post is asked for, carrying the event's normalised payload. It is never a chat send |
| `Relay.Forward` | python-app/app/vk_teams_bot.py:189-191 | handing an event to the handler changes only the handler, and asks for the normalised post when a URL is set |
| `Relay.AdvanceCursor` | python-app/app/vk_teams_bot.py:210-216 | the new cursor is the larger of the old cursor and the event's id, where a missing id counts as 0 |
| `Relay.ReplyActions` | python-app/app/vk_teams_bot.py:139-170 | at most one reply is sent, exactly when the text gets a reply. It goes to the message's own chat and carries the class's text for that command (welcome, help, status summary, or echo prefix plus the text). It is never a webhook post |
| `Relay.HandleMessage` | python-app/app/vk_teams_bot.py:113-141 | a plain message is recorded in the registry and handed to the handler before any text check. Its actions are the webhook post first and then the reply, computed with the registry size after recording it. The cursor and run flag stay |
| `Relay.HandleMessageActions` | python-app/app/vk_teams_bot.py:135-170 | a plain message asks for the webhook post when one is configured, and for at most one reply to its chat, computed with the registry size after recording it |
| `Relay.HandleCallback` | python-app/app/vk_teams_bot.py:175-194 | a button press is handed to the handler and never touches the registry. Its actions are the webhook post first and then the acknowledgement `Вы нажали: ` plus the button's data, to the chat of the pressed message |
| `Relay.HandleCallbackActions` | python-app/app/vk_teams_bot.py:189-194 | a button press asks for the webhook post when one is configured and for exactly one acknowledgement, `Вы нажали: ` followed by the button's data, to the chat of the pressed message |
| `Relay.ProcessEvent` | python-app/app/vk_teams_bot.py:209-225 | every event advances the cursor. Only plain messages change the registry. Only routed events reach the handler. Any other type asks for nothing |
| `Relay.ProcessEventRegistry` | python-app/app/vk_teams_bot.py:128-133 | one event adds its chat to the registry and raises that chat's count by one when it is a plain message, and changes nothing else |
| `Relay.ProcessEventForwards` | python-app/app/vk_teams_bot.py:135-137 | each routed event is posted to the webhook once when a URL is configured; other events are never posted |
| `Relay.ProcessEventMessages` | python-app/app/vk_teams_bot.py:218-223 | each event's chat sends are exactly its handler's answers: the reply to a plain message, the acknowledgement of a button press the class handles, and nothing for any other event |
| `Relay.ProcessEventCounters` | python-app/app/webhook_handler.py:78-85 | one event raises the sent counter by one exactly when the bot has a URL, the event is routed and its post got status 200, and leaves it otherwise. The received counter does not move, and the counters never go down |
| `Relay.MaxIdFrom` | python-app/app/vk_teams_bot.py:209-216 | reference definition: the largest of the cursor and the batch's ids, which bounds each of them and is attained |
| `Relay.MaxIdAppend` | python-app/app/vk_teams_bot.py:209-216 | taking the maximum over two batches in a row is taking it over their concatenation |
| `Relay.ProcessBatch` | python-app/app/vk_teams_bot.py:207-225 | after a batch the cursor is the largest of the old cursor and all the batch's ids, whatever their types; the run flag and the handler's URL stay. What it posts and sends is stated by `Relay.BatchForwards` and `Relay.BatchSends` |
| `Relay.BatchCounts` | python-app/app/vk_teams_bot.py:128-133 | after a batch each chat's count has gone up by the number of plain messages from that chat in it |
| `Relay.BatchKeys` | python-app/app/vk_teams_bot.py:128 | after a batch the registry holds exactly its old chats plus the chats that sent a plain message |
| `Relay.BatchCounters` | python-app/app/webhook_handler.py:78-80 | over a batch the counters never go down. With a URL the sent counter grows by the number of routed events whose post got status 200, and without one it stays. The received counter does not move |
| `Relay.BatchForwards` | python-app/app/vk_teams_bot.py:135-137 | the webhook posts of a batch are exactly the routed events' normalised payloads, one each, in batch order, each stamped with its own event's time, when a URL is set, and none otherwise. So their number is the routed count |
| `Relay.BatchSends` | python-app/app/vk_teams_bot.py:218-223 | the chat sends of a batch are every routed event's answer, in batch order. A `/status` reply counts the chats known once its own message is recorded, so no reply or acknowledgement is dropped, repeated or reordered |
| `RelayProperties.Run` | python-app/app/vk_teams_bot.py:199-235 | a stopped bot does nothing. The loop keeps running exactly as long as no interrupt arrives. The cursor never goes down, and the handler and its URL are kept |
| `RelayProperties.RunCursor` | python-app/app/vk_teams_bot.py:203-216 | over any run the cursor ends at the largest id among all events polled before the first interrupt |
| `RelayProperties.RunCounts` | python-app/app/vk_teams_bot.py:128-133 | over any run each chat's count grows by the number of plain messages it sent |
| `RelayProperties.RunKeys` | python-app/app/vk_teams_bot.py:128 | over any run the registry gains exactly the chats that sent a plain message |
| `RelayProperties.RunForwards` | python-app/app/vk_teams_bot.py:203-223 | over any run the webhook receives exactly each polled batch's routed payloads, batch after batch, up to the first interrupt |
| `RelayProperties.RunSends` | python-app/app/vk_teams_bot.py:203-223 | over any run the chat sends are each polled batch's answers, batch after batch, up to the first interrupt. The chats known grow by each batch's plain-message senders |
| `RelayProperties.FreshRun` | python-app/app/vk_teams_bot.py:23-26 | from a new bot, the cursor is the largest id polled (or 0). The registry holds exactly the chats that sent a plain message. Each `message_count` is the number of plain messages that chat sent |
| `RelayProperties.RunGrows` | python-app/app/webhook_handler.py:29-34 | over any run the webhook counters of the bot's handler never go down |
| `RelayProperties.FailedPollSkipped` | python-app/app/vk_teams_bot.py:42-58 | a poll answered with a status other than 200, a non-JSON body, a timeout or a network error leaves the state and the rest of the run exactly as if it had not happened |
| `RelayProperties.EmptyMessageCountedNotAnswered` | python-app/app/vk_teams_bot.py:128-141 | a plain message with no text is still counted and forwarded, but gets no reply |
| `RelayProperties.StatusCountsAskingChat` | python-app/app/vk_teams_bot.py:158-165 | the `/status` reply reports the registry size after the asking chat has been recorded, so the count includes that chat |
| `RelayProperties.EchoReply` | python-app/app/vk_teams_bot.py:167-170 | text that does not start with `/` gets exactly one reply, the class's echo prefix followed by the text, in its own chat |
| `RelayProperties.HelloScenario` | python-app/app/vk_teams_bot.py:209-220 | message 6 saying `hello` from a chat already seen once is answered once with the echo prefix and the text, raises that chat's count to 2 and moves the cursor to 6 |
| `RelayProperties.StaleEventStillHandled` | python-app/app/vk_teams_bot.py:215-220 | an event whose id is not above the cursor leaves the cursor but is still counted; there is no de-duplication |
| `RelayProperties.ReplayCountedTwice` | python-app/app/vk_teams_bot.py:209-220 | the same plain message delivered twice is counted twice |
| `RelayProperties.ForwardedMessageChatIsRecorded` | python-app/app/webhook_handler.py:48-51 | the chat id a forwarded plain message carries is the registry key it was recorded under |
| `RelayProperties.ForwardedCallbackChatIsAnswered` | python-app/app/webhook_handler.py:48-49 | the chat id a forwarded button press carries is the chat its acknowledgement goes to, and the registry is untouched |
| `RelayProperties.LegacyIgnoresCallbacks` | python-app/app/bot.py:178-184 | the older class only advances the cursor on a button press: no reply, no forward, no registry change |
| `RelayProperties.ClassesAgreeOnRegistry` | python-app/app/bot.py:107-112 | both classes leave the same cursor and registry after any batch |
| `RelayProperties.BatchTotal` | python-app/app/api_server.py:141 | over a batch the total message count grows by the number of plain messages, and every entry keeps at least one |
| `Gateway.Respond` | python-app/app/api_server.py:116-132 | an error record gives 400 with its error and no send. Otherwise the response is 200 with the record exactly when the send succeeded, and 500 when it failed |
| `Gateway.HandleIncomingWebhook` | python-app/app/api_server.py:103-132 | with no bot the answer is 500 and nothing changes. Otherwise the message is counted and sent to its chat with no keyboard. The answer is 200 with the acceptance record exactly when the send succeeds, and 500 when it fails. It is never 400, and the sent counter never moves |
| `Gateway.RegistryDoesNotGate` | python-app/app/api_server.py:119-125 | whether the target chat is in the registry changes neither the response, nor the send, nor the counters |
| `Gateway.ServerCounters` | python-app/app/api_server.py:26 | the server's own handler never forwards, so its sent counter stays fixed over any requests. With a bot set, its received counter counts every request |
| `Gateway.FreshServerCounters` | python-app/app/webhook_handler.py:26-34 | a server built with a fresh handler has sent nothing to the webhook over any requests. With a bot set, it has received exactly as many as it served |
| `Gateway.RegistryOf` | python-app/app/api_server.py:137 | the views read the bot's `get_active_chats()` copy, which is its registry, or an empty one when no bot is set |
| `Gateway.RootStatus` | python-app/app/api_server.py:46 | `/` reports `running` exactly when a bot is set and its run flag is on, and `stopped` otherwise |
| `Gateway.Health` | python-app/app/api_server.py:62-72 | `/health` reports the bot as running exactly when `/` does, with the registry size |
| `Gateway.ChatsOf` | python-app/app/api_server.py:85-100 | `/chats` reports the registry and its size, or an empty map with an error when no bot is set |
| `Gateway.ApiStats` | python-app/app/api_server.py:134-152 | `/api/stats` reports the run flag, the registry size and the sum of the message counts, and the size never exceeds the sum in a registry the bot built |

## Left out

- Network I/O, `requests` sessions, FastAPI routing and pydantic validation are not modelled.
  Every exchange is an abstract outcome, and the token and URL query parameters are not part of it.
- JSON values of unexpected types are not modelled; the model types every event field, so
  these paths cannot arise. In the code a `null` or non-object `events` entry, or an `eventId`
  that does not compare with an integer, raises inside the batch loop
  (python-app/app/vk_teams_bot.py:210-215). The `except Exception` branch then abandons the rest
  of the batch. A float `eventId` raises nothing: it is compared and stored as the cursor. A
  non-string `text` is recorded and forwarded first. If Python treats it as false (`null`, `0`,
  `[]`, `{}`), `handle_message` then returns at python-app/app/vk_teams_bot.py:140-141 without
  raising. If it is true, it reaches `.startswith` (python-app/app/vk_teams_bot.py:167) and raises
  there. `handle_message`'s own `except` catches that, and the batch goes on. The `ok` field
  of a send's answer is tested for truthiness (python-app/app/vk_teams_bot.py:95), so `"ok": 1` succeeds and `"ok": null` fails.
  `ChatClient.ReplyBody` holds it as an optional boolean.
- A poll answer that is JSON but not an object is not modelled in detail. It is treated as
  carrying no events, which is how the loop ends up treating it.
- A keyboard string that parses as JSON but is not an object is not modelled. For a JSON
  number, boolean or null, the `in` test (python-app/app/vk_teams_bot.py:76) raises out of
  `send_text`. For a JSON array or string, that test is a membership or substring test. When it
  fails, the text is posted without a keyboard. When it succeeds, the indexing at line 77 raises.
  The model's keyboard is either not JSON or an object. The object may hold an `inlineKeyboard`
  that has a length, whose re-serialised form is an opaque string. Or it may hold one without a
  length, on which the log line's `len` raises (line 78), and `ChatClient.SendText` models that
  raise.
- `inline_keyboard_markup` and `message_type` of an inbound message are opaque. The gateway
  never passes them on, so nothing depends on their contents.
- Clocks: `datetime.now()` is read several times per event in the code (registry time,
  payload time, send time). The model uses one reading per event. Timestamps are opaque strings.
- `time.sleep` pauses, poll timeouts and retry backoff are not modelled; they affect only timing.
- Threads are not modelled: the poll thread and the API server run concurrently in `main.py`.
  `stop` and `KeyboardInterrupt` are an `Interrupt` tick checked between polls. The views read
  a registry snapshot.
- Logging is not modelled.
- `config.py`, `main.py` and `__init__.py` are not part of this model. Configuration values
  are the `Settings.Config` parameter, which holds only the API URL, the webhook URL and the
  environment name that the modelled code reads. The bot token, server host and port and the poll
  time only feed network I/O and timing, so they are not modelled.
- The `/health`, `/` and `/api/stats` fields that only echo configuration, version strings or
  the server's `get_webhook_stats` are not modelled beyond `WebhookHandler.GetWebhookStats`.

## Behaviour worth knowing

- The echo reply is `Эхо: ` followed by the text (python-app/app/vk_teams_bot.py:167-170).
  In `bot.py` it is `🔄 Эхо: ` (python-app/app/bot.py:155-156).
- `process_incoming_webhook` validates nothing (python-app/app/webhook_handler.py:97-112).
  An empty chat id or message is accepted, counted and sent, so `/api/webhook` never
  answers 400. The 400 branch of python-app/app/api_server.py:116-117 is kept in
  `Gateway.Respond`, where only an error record reaches it.
- A send answered with status 200 and a JSON object without `ok` is a failure
  (python-app/app/vk_teams_bot.py:92-100). Only a non-JSON body or a truthy `ok` counts as success.
- The current class's `/status` summary has no environment line
  (python-app/app/vk_teams_bot.py:158-164). `bot.py`'s summary has one (python-app/app/bot.py:150).
- The polling loop hands only `newMessage` and `callbackQuery` events on
  (python-app/app/vk_teams_bot.py:218-225). Other event types only move the cursor. Button
  presses never touch the registry (python-app/app/vk_teams_bot.py:175-196).
- `main.py` gives the bot one `WebhookHandler` and the API server builds its own
  (python-app/app/api_server.py:26). So the server's counters never see a forward, and
  `Gateway.Server` carries its own handler.

=== FILE: chat_client.dfy ===
/**
 * The chat platform client of `vk_teams_bot.py`: reading a long-poll answer
 * into a batch of events, and classifying the answer to a send as delivered
 * or not. The HTTP exchanges themselves are inputs.
 */
module ChatClient {
  import opened Wrappers
  import opened Http
  import opened Events

  /** A parsed long-poll body: a JSON object with or without an `events` list, or any other JSON value. */
  datatype PollBody = PollObject(events: Option<seq<Event>>) | PollOther

  /** `get_events`: the parsed body of a 200 answer; nothing for any other status,
      an unparseable body, a timeout or a network error. */
  function GetEvents(outcome: Outcome<PollBody>): (r: Option<PollBody>)
    ensures r.Some? <==> outcome.IsOk() && outcome.body.Json?
    ensures r.Some? ==> r.value == outcome.body.value
  {
    if outcome.IsOk() && outcome.body.Json? then Some(outcome.body.value) else None
  }

  /** The events the polling loop iterates over: the `events` list of a successful answer,
      and no events at all otherwise, so a failed poll carries no partial data. */
  function FetchedBatch(outcome: Outcome<PollBody>): (events: seq<Event>)
    ensures events != [] ==> outcome == Answered(Ok, Json(PollObject(Some(events))))
    ensures (outcome.IsOk() && outcome.body.Json? && outcome.body.value.PollObject? && outcome.body.value.events.Some?)
              ==> events == outcome.body.value.events.value
    ensures !(outcome.IsOk() && outcome.body.Json?) ==> events == []
  {
    match GetEvents(outcome)
    case Some(PollObject(Some(events))) => events
    case _ => []
  }

  // ----- sending -----

  /** The `inlineKeyboard` value of a parsed keyboard: one that has a length (a list, an object or
      a string), re-serialised, or a number, boolean or null, on which the `len` in the log line
      raises. */
  datatype InlineKeyboard = Sized(json: string) | Unsized

  /** A keyboard after `json.loads`: its `inlineKeyboard` value, if the key is present. */
  datatype Markup = Markup(inlineKeyboard: Option<InlineKeyboard>)

  /** The form fields posted to `messages/sendText` (the token field is left out). */
  datatype Form = Form(chatId: string, text: string, inlineKeyboardMarkup: Option<string>)

  /** A parsed answer to a send: a JSON object with or without `ok`, or any other JSON value. */
  datatype ReplyBody = ReplyObject(ok: Option<bool>) | ReplyOther

  /** The request that was posted, if any, whether the send reports success, and whether it
      raised out of `send_text` instead of returning. */
  datatype SendAttempt = SendAttempt(request: Option<Form>, delivered: bool, raised: bool)

  /** Whether the answer to a posted send means the message was delivered: status 200
      and either a body that is not JSON or an object whose `ok` is true. A missing
      `ok`, a non-object body (whose `.get` raises), any other status and any raised
      exception all mean failure. */
  function Delivered(outcome: Outcome<ReplyBody>): (r: bool)
    ensures r <==> outcome.IsOk() && (outcome.body.NotJson? || outcome.body.value == ReplyObject(Some(true)))
  {
    match outcome
    case Raised(_) => false
    case Answered(status, body) =>
      if status != Ok then false
      else match body
        case NotJson => true
        case Json(ReplyObject(ok)) => ok.GetOr(false)
        case Json(ReplyOther) => false
  }

  /** `send_text` with an optional keyboard. `keyboard` is `None` when the argument is
      `None` or empty (both falsy), otherwise the result of parsing it. A keyboard that is
      not JSON fails the send before anything is posted; an `inlineKeyboard` without a length
      raises out of the send before anything is posted. */
  function SendText(chatId: string, text: string, keyboard: Option<Parsed<Markup>>, outcome: Outcome<ReplyBody>): (s: SendAttempt)
    ensures s.raised <==> keyboard == Some(Json(Markup(Some(Unsized))))
    ensures s.request.None? <==> keyboard == Some(NotJson) || s.raised
    ensures s.request.Some? ==> s.request.value.chatId == chatId && s.request.value.text == text
    ensures keyboard.None? ==> s.request == Some(Form(chatId, text, None))
    ensures keyboard == Some(Json(Markup(None))) ==> s.request == Some(Form(chatId, text, None))
    ensures forall rows :: keyboard == Some(Json(Markup(Some(Sized(rows))))) ==>
              s.request == Some(Form(chatId, text, Some(rows)))
    ensures s.delivered <==> s.request.Some? && Delivered(outcome)
  {
    match keyboard
    case Some(NotJson) => SendAttempt(None, false, false)
    case Some(Json(Markup(None))) =>
      SendAttempt(Some(Form(chatId, text, None)), Delivered(outcome), false)
    case Some(Json(Markup(Some(Sized(rows))))) =>
      SendAttempt(Some(Form(chatId, text, Some(rows))), Delivered(outcome), false)
    case Some(Json(Markup(Some(Unsized)))) => SendAttempt(None, false, true)
    case None =>
      SendAttempt(Some(Form(chatId, text, None)), Delivered(outcome), false)
  }
}

=== FILE: commands.dfy ===
/**
 * Command dispatch for a plain chat message, as `handle_message` in
 * `vk_teams_bot.py` does it: exact matches for three commands, an echo for
 * text that does not start with "/", silence for empty text and unknown commands.
 */
module Commands {
  import opened Wrappers
  import Text
  import Settings

  /** The closed set of cases a message text falls into. */
  datatype Command = NoText | Start | Help | Status | Echo(text: string) | Unknown(text: string)

  /** Classifies a message text; every text lands in exactly one case. */
  function Classify(text: string): (c: Command)
    ensures c.NoText? <==> text == ""
    ensures c.Start? <==> text == "/start"
    ensures c.Help? <==> text == "/help"
    ensures c.Status? <==> text == "/status"
    ensures c.Echo? <==> text != "" && !Text.StartsWith(text, "/")
    ensures c.Unknown? <==> Text.StartsWith(text, "/") && text != "/start" && text != "/help" && text != "/status"
    ensures (c.Echo? || c.Unknown?) ==> c.text == text
  {
    if text == "" then NoText
    else if text == "/start" then Start
    else if text == "/help" then Help
    else if text == "/status" then Status
    else if !Text.StartsWith(text, "/") then Echo(text)
    else Unknown(text)
  }

  /** The cases that get a reply. */
  predicate GetsReply(c: Command) {
    !(c.NoText? || c.Unknown?)
  }

  /** What tells the two bot classes apart: whether button presses are handled, and the
      texts of the replies. */
  datatype BotClass = BotClass(
    handlesCallbacks: bool,
    welcome: string,
    help: string,
    status: (Settings.Config, nat) -> string,
    echoPrefix: string)

  /** The reply to a classified message, if it gets one. `activeChats` is the registry size
      the `/status` summary reports. */
  function Reply(k: BotClass, cfg: Settings.Config, c: Command, activeChats: nat): (r: Option<string>)
    ensures r.Some? <==> GetsReply(c)
    ensures c.Start? ==> r == Some(k.welcome)
    ensures c.Help? ==> r == Some(k.help)
    ensures c.Status? ==> r == Some(k.status(cfg, activeChats))
    ensures c.Echo? ==> r == Some(k.echoPrefix + c.text)
  {
    match c
    case NoText => None
    case Start => Some(k.welcome)
    case Help => Some(k.help)
    case Status => Some(k.status(cfg, activeChats))
    case Echo(text) => Some(k.echoPrefix + text)
    case Unknown(_) => None
  }

  // ----- the class of vk_teams_bot.py -----

  const WelcomeText: string :=
    "Привет! Я VK Teams бот с интеграцией N8N. Отправь мне любое сообщение, и я отправлю его обратно, а также перешлю в n8n."

  const HelpText: string :=
    "Доступные команды:\n"
    + "/start - начать работу с ботом\n"
    + "/help - показать эту справку\n"
    + "/status - показать статус бота\n\n"
    + "Просто отправь мне любое сообщение, и я отправлю его обратно, а также перешлю в n8n."

  /** The opening of both classes' `/status` summaries, up to the number of active chats. */
  const CountLine: string := "🤖 Статус бота: Активен\n📊 Активных чатов: "

  /** The number a `/status` summary shows: the run of digits right after its opening. */
  function ReportedCount(summary: string): nat
    requires Text.StartsWith(summary, CountLine)
  {
    Text.ParseDigits(summary[|CountLine|..Text.DigitsEnd(summary, |CountLine|)])
  }

  /** A summary laid out as `/status` lays it out shows exactly the registry size it was given. */
  lemma CountReadsBack(activeChats: nat, rest: string)
    ensures var summary := CountLine + Text.NatToString(activeChats) + "\n" + rest;
            Text.StartsWith(summary, CountLine) && ReportedCount(summary) == activeChats
  {
    Text.NumberReadsBack(CountLine, activeChats, rest);
  }

  /** The `/status` summary. */
  function StatusText(cfg: Settings.Config, activeChats: nat): string {
    CountLine + Text.NatToString(activeChats) + "\n" + StatusDetails(cfg)
  }

  /** The lines of the `/status` summary after the count. */
  function StatusDetails(cfg: Settings.Config): string {
    "🔗 API URL: " + cfg.apiUrl + "\n"
    + "📡 N8N Webhook: " + (if cfg.webhookUrl != "" then "✅ Настроен" else "❌ Не настроен")
  }

  /** The `/status` summary shows the registry size it is given. */
  lemma StatusShowsCount(cfg: Settings.Config, activeChats: nat)
    ensures Text.StartsWith(StatusText(cfg, activeChats), CountLine)
    ensures ReportedCount(StatusText(cfg, activeChats)) == activeChats
  {
    CountReadsBack(activeChats, StatusDetails(cfg));
  }

  /** The acknowledgement sent for a button press. */
  const CallbackPrefix: string := "Вы нажали: "

  const Current: BotClass := BotClass(true, WelcomeText, HelpText, StatusText, "Эхо: ")
}

=== FILE: events.dfy ===
/**
 * An event of the chat platform's long-poll response, with every JSON key that
 * may be missing held as an `Option`, and the defaults the relay substitutes
 * for missing keys.
 */
module Events {
  import opened Wrappers
  import Text

  /** A clock reading (`datetime.now().isoformat()`); its content is opaque here. */
  type Timestamp = string

  /** The `payload` object. `chatId` is `payload.chat.chatId`; `messageChatId` is
      `payload.message.chat.chatId`, where a button press carries its chat. */
  datatype Payload = Payload(
    text: Option<string>,
    chatId: Option<string>,
    firstName: Option<string>,
    lastName: Option<string>,
    userId: Option<string>,
    timestamp: Option<int>,
    msgId: Option<string>,
    callbackData: Option<string>,
    messageChatId: Option<string>)

  datatype Event = Event(eventId: Option<int>, kind: Option<string>, payload: Payload)

  const NewMessage: string := "newMessage"
  const CallbackQuery: string := "callbackQuery"

  /** `event.get('eventId', 0)` */
  function IdOf(e: Event): int {
    e.eventId.GetOr(0)
  }

  /** `event.get('type', '')` as the polling loop reads it. */
  function TypeOf(e: Event): string {
    e.kind.GetOr("")
  }

  predicate IsNewMessage(e: Event) {
    TypeOf(e) == NewMessage
  }

  predicate IsCallback(e: Event) {
    TypeOf(e) == CallbackQuery
  }

  /** No event is both a plain message and a button press. */
  lemma KindsExclusive(e: Event)
    ensures !(IsNewMessage(e) && IsCallback(e))
    ensures IsNewMessage(e) ==> e.kind == Some(NewMessage) && e.kind != Some(CallbackQuery)
  {
    assert NewMessage[0] != CallbackQuery[0];
  }

  function TextOf(e: Event): string {
    e.payload.text.GetOr("")
  }

  /** The chat a plain message belongs to. */
  function ChatIdOf(e: Event): string {
    e.payload.chatId.GetOr("")
  }

  /** The chat a button press belongs to: one level deeper, under the pressed message. */
  function CallbackChatIdOf(e: Event): string {
    e.payload.messageChatId.GetOr("")
  }

  /** `f"{firstName} {lastName}".strip()`, each part defaulting to the empty string. */
  function UserNameOf(e: Event): string {
    Text.Strip(e.payload.firstName.GetOr("") + " " + e.payload.lastName.GetOr(""))
  }

  function UserIdOf(e: Event): string {
    e.payload.userId.GetOr("")
  }

  function CallbackDataOf(e: Event): string {
    e.payload.callbackData.GetOr("")
  }
}

=== FILE: gateway.dfy ===
/**
 * The inbound side of `api_server.py`: the decision the `/api/webhook`
 * endpoint makes for a message coming back from the automation webhook, and
 * the read-only views `/`, `/health`, `/chats` and `/api/stats` derive from the
 * bot's registry. The server owns its own webhook handler, distinct from the
 * bot's.
 */
module Gateway {
  import opened Wrappers
  import opened Http
  import opened Events
  import opened Registry
  import opened WebhookHandler
  import ChatClient
  import Relay

  /** The server: its own webhook handler and the bot instance set on it, if any. */
  datatype Server = Server(bridge: Handler, bot: Option<Relay.Bot>)

  /** An HTTP response: the status, the acceptance record on success, the error detail otherwise. */
  datatype Response = Response(status: int, record: Option<Acceptance>, detail: string)

  /** The server after a request, its response, and the send to the chat if one was attempted. */
  datatype Delivery = Delivery(server: Server, response: Response, attempt: Option<ChatClient.SendAttempt>)

  /** The response once the bridge has produced its record: an error record is a 400 carrying
      its error and no send is made; otherwise the send decides between 200 with the record
      and 500. */
  function Respond(record: Acceptance, attempt: Option<ChatClient.SendAttempt>): (r: Response)
    ensures r.status == 400 <==> record.Rejected?
    ensures record.Rejected? ==> r.detail == record.error
    ensures r.status == 200 <==> record.Accepted? && attempt.Some? && attempt.value.delivered
    ensures r.status == 200 || r.status == 400 || r.status == 500
    ensures r.record.Some? <==> r.status == 200
    ensures r.record.Some? ==> r.record.value == record
  {
    match record
    case Rejected(error, _) => Response(400, None, error)
    case Accepted(_, _, _, _, _) =>
      if attempt.Some? && attempt.value.delivered then Response(200, Some(record), "")
      else Response(500, None, "Failed to send message to VK Teams")
  }

  /** `handle_incoming_webhook`: with no bot, 500 before the bridge sees the message; otherwise
      the bridge counts and accepts it and the text is sent to its chat, with neither the type
      nor the keyboard passed on, whether or not the chat is in the registry. */
  function HandleIncomingWebhook(s: Server, m: IncomingMessage, now: Timestamp, outcome: Outcome<ChatClient.ReplyBody>): (r: Delivery)
    ensures s.bot.None? ==> r.server == s && r.attempt.None? && r.response.status == 500
    ensures r.server.bot == s.bot && r.server.bridge.url == s.bridge.url
    ensures r.attempt.Some? <==> s.bot.Some?
    ensures r.attempt.Some? ==> r.attempt.value.request == Some(ChatClient.Form(m.chatId, m.message, None))
    ensures r.response.status == 200 || r.response.status == 500
    ensures r.response.status == 200 <==> s.bot.Some? && ChatClient.Delivered(outcome)
    ensures r.response.status == 200 ==> r.response.record == Some(Accepted(m.chatId, m.message, m.messageType, now, |m.message|))
    ensures s.bot.Some? ==> r.server.bridge.stats.receivedFromN8n == s.bridge.stats.receivedFromN8n + 1
    ensures r.server.bridge.stats.sentToN8n == s.bridge.stats.sentToN8n
  {
    match s.bot
    case None => Delivery(s, Response(500, None, "Bot not initialized"), None)
    case Some(_) =>
      var accepted := ProcessIncoming(s.bridge, m, now);
      var attempt := if accepted.record.Accepted? then Some(ChatClient.SendText(m.chatId, m.message, None, outcome)) else None;
      Delivery(s.(bridge := accepted.handler), Respond(accepted.record, attempt), attempt)
  }

  /** Whether the target chat is in the registry changes nothing but a log line. */
  lemma RegistryDoesNotGate(s: Server, chats: Chats, m: IncomingMessage, now: Timestamp, outcome: Outcome<ChatClient.ReplyBody>)
    requires s.bot.Some?
    ensures var other := s.(bot := Some(s.bot.value.(activeChats := chats)));
            var r := HandleIncomingWebhook(s, m, now, outcome);
            var r' := HandleIncomingWebhook(other, m, now, outcome);
            r.response == r'.response && r.attempt == r'.attempt && r.server.bridge == r'.server.bridge
  {
  }

  /** A sequence of inbound requests, each with its clock reading and the answer to its send. */
  datatype Request = Request(message: IncomingMessage, now: Timestamp, outcome: Outcome<ChatClient.ReplyBody>)

  function ServeAll(s: Server, requests: seq<Request>): (r: Server)
    ensures r.bot == s.bot && r.bridge.url == s.bridge.url
    decreases |requests|
  {
    if requests == [] then s
    else
      var q := requests[0];
      ServeAll(HandleIncomingWebhook(s, q.message, q.now, q.outcome).server, requests[1..])
  }

  /** The server's handler never forwards, so however many messages come in, its sent counter
      stays where it started; with a bot set, its received counter counts every request. */
  lemma {:induction false} ServerCounters(s: Server, requests: seq<Request>)
    ensures ServeAll(s, requests).bridge.stats.sentToN8n == s.bridge.stats.sentToN8n
    ensures s.bot.Some? ==> ServeAll(s, requests).bridge.stats.receivedFromN8n == s.bridge.stats.receivedFromN8n + |requests|
    decreases |requests|
  {
    if requests != [] {
      var q := requests[0];
      ServerCounters(HandleIncomingWebhook(s, q.message, q.now, q.outcome).server, requests[1..]);
    }
  }

  /** A server built at start-up, with a fresh handler of its own: it has sent nothing, and
      with a bot set it has received exactly the requests it served. */
  lemma FreshServerCounters(url: string, bot: Option<Relay.Bot>, requests: seq<Request>)
    ensures var s := ServeAll(Server(NewHandler(url), bot), requests);
            && s.bridge.stats.sentToN8n == 0
            && (bot.Some? ==> s.bridge.stats.receivedFromN8n == |requests|)
  {
    ServerCounters(Server(NewHandler(url), bot), requests);
  }

  // ----- read-only views -----

  /** The registry the views read: the bot's `get_active_chats()`, or an empty one when no bot is set. */
  function RegistryOf(s: Server): (chats: Chats)
    ensures s.bot.None? ==> chats == map[]
    ensures s.bot.Some? ==> chats == s.bot.value.activeChats
  {
    if s.bot.Some? then Relay.GetActiveChats(s.bot.value) else map[]
  }

  /** The `status` field of `/`. */
  function RootStatus(s: Server): (status: string)
    ensures status == "running" <==> s.bot.Some? && s.bot.value.running
    ensures status == "running" || status == "stopped"
  {
    if s.bot.Some? && s.bot.value.running then "running" else "stopped"
  }

  /** The bot part of `/health`, and the `active_chats` of `/`. */
  datatype BotHealth = BotHealth(running: bool, activeChats: nat)

  function Health(s: Server): (h: BotHealth)
    ensures h.running <==> RootStatus(s) == "running"
    ensures h.activeChats == |RegistryOf(s)|
  {
    match s.bot
    case None => BotHealth(false, 0)
    case Some(b) => BotHealth(b.running, |b.activeChats|)
  }

  datatype ChatsView = ChatsView(totalChats: nat, chats: Chats, error: Option<string>)

  /** `/chats`: the registry and its size, or an empty map with an error when no bot is set. */
  function ChatsOf(s: Server): (v: ChatsView)
    ensures v.chats == RegistryOf(s) && v.totalChats == |v.chats|
    ensures v.error.Some? <==> s.bot.None?
  {
    match s.bot
    case None => ChatsView(0, map[], Some("Bot instance not initialized"))
    case Some(b) => ChatsView(|b.activeChats|, b.activeChats, None)
  }

  datatype ChatStats = ChatStats(botRunning: bool, totalActiveChats: nat, totalMessagesProcessed: nat)

  /** The chat part of `/api/stats`: the registry size and the sum of its message counts. In a
      registry built by the bot every chat has a message, so there are never more chats than messages. */
  method ApiStats(s: Server) returns (report: ChatStats)
    ensures report.botRunning <==> s.bot.Some? && s.bot.value.running
    ensures report.totalActiveChats == |RegistryOf(s)|
    ensures report.totalMessagesProcessed == SumCounts(RegistryOf(s))
    ensures WellFormed(RegistryOf(s)) ==> report.totalActiveChats <= report.totalMessagesProcessed
  {
    var chats := RegistryOf(s);
    var total := TotalMessages(chats);
    if WellFormed(chats) {
      ChatsBoundTotal(chats);
    }
    report := ChatStats(s.bot.Some? && s.bot.value.running, |chats|, total);
  }
}

=== FILE: http.dfy ===
/**
 * Abstract outcomes of the HTTP calls the relay makes. A call either raises
 * (timeout, connection failure, anything else `requests` throws) or is answered
 * with a status code and a body that parses as JSON or does not.
 */
module Http {

  datatype Failure = Timeout | ConnectionFailed | OtherError

  datatype Parsed<+B> = NotJson | Json(value: B)

  datatype Outcome<+B> = Answered(status: int, body: Parsed<B>) | Raised(reason: Failure) {

    /** The call completed with exactly status 200. */
    predicate IsOk() {
      Answered? && status == Ok
    }
  }

  /** The status code every "success" test in the relay compares against. */
  const Ok: int := 200
}

=== FILE: legacy_bot.dfy ===
/**
 * The older bot class of `bot.py`: the same loop, registry and command
 * classification, but its own reply texts, a different echo prefix, a send
 * without keyboard support, and no handling of button presses.
 */
module LegacyBot {
  import opened Wrappers
  import opened Http
  import Text
  import Settings
  import Commands
  import ChatClient

  const WelcomeText: string :=
    "👋 Привет! Я VK Teams бот с интеграцией N8N.\n"
    + "Отправь мне любое сообщение, и я:\n"
    + "• Отвечу эхом\n"
    + "• Перешлю событие в N8N для обработки"

  const HelpText: string :=
    "📖 Доступные команды:\n"
    + "/start - начать работу с ботом\n"
    + "/help - показать эту справку\n"
    + "/status - показать статус бота и интеграций\n\n"
    + "Просто отправь мне любое сообщение, и я отправлю его обратно, "
    + "а также перешлю в N8N для дальнейшей обработки."

  /** The `/status` summary, which also names the environment. */
  function StatusText(cfg: Settings.Config, activeChats: nat): string {
    Commands.CountLine + Text.NatToString(activeChats) + "\n" + StatusDetails(cfg)
  }

  /** The lines of the `/status` summary after the count. */
  function StatusDetails(cfg: Settings.Config): string {
    "🔗 API URL: " + cfg.apiUrl + "\n"
    + "📡 N8N интеграция: " + (if cfg.webhookUrl != "" then "✅ Настроен" else "❌ Не настроен") + "\n"
    + "🎯 Окружение: " + cfg.environment
  }

  /** The `/status` summary shows the registry size it is given, laid out as the newer class's. */
  lemma StatusShowsCount(cfg: Settings.Config, activeChats: nat)
    ensures Text.StartsWith(StatusText(cfg, activeChats), Commands.CountLine)
    ensures Commands.ReportedCount(StatusText(cfg, activeChats)) == activeChats
  {
    Commands.CountReadsBack(activeChats, StatusDetails(cfg));
  }

  /** The older class replies with its own texts and ignores button presses. */
  const Legacy: Commands.BotClass := Commands.BotClass(false, WelcomeText, HelpText, StatusText, "🔄 Эхо: ")

  /** `send_text` of the older class: always posts the chat id and text, and reads the answer
      exactly as the newer class does. */
  function SendText(chatId: string, text: string, outcome: Outcome<ChatClient.ReplyBody>): (s: ChatClient.SendAttempt)
    ensures s.request == Some(ChatClient.Form(chatId, text, None)) && !s.raised
    ensures s.delivered <==>
              (outcome.IsOk() && (outcome.body.NotJson? || outcome.body.value == ChatClient.ReplyObject(Some(true))))
  {
    ChatClient.SendAttempt(Some(ChatClient.Form(chatId, text, None)), ChatClient.Delivered(outcome), false)
  }

  /** Without a keyboard, the two classes' sends post the same form and agree on the result. */
  lemma SendAgreesWithCurrent(chatId: string, text: string, outcome: Outcome<ChatClient.ReplyBody>)
    ensures SendText(chatId, text, outcome) == ChatClient.SendText(chatId, text, None, outcome)
  {
  }
}

=== FILE: registry.dfy ===
/**
 * The active-chat registry: one entry per chat id that has sent a plain
 * message, created on the first one and overwritten on every later one.
 */
module Registry {
  import opened Events

  datatype ChatEntry = ChatEntry(userName: string, userId: string, lastMessageTime: Timestamp, messageCount: nat)

  type Chats = map<string, ChatEntry>

  /** `active_chats.get(chat_id, {}).get('message_count', 0)` */
  function CountOf(chats: Chats, chatId: string): nat {
    if chatId in chats then chats[chatId].messageCount else 0
  }

  /** Records one message from `chatId`: the count goes up by one (from 0 for a new
      chat), the sender fields and time are overwritten, and no other entry changes. */
  function Upsert(chats: Chats, chatId: string, userName: string, userId: string, now: Timestamp): (r: Chats)
    ensures r.Keys == chats.Keys + {chatId}
    ensures forall c :: CountOf(r, c) == CountOf(chats, c) + (if c == chatId then 1 else 0)
    ensures r[chatId].userName == userName && r[chatId].userId == userId && r[chatId].lastMessageTime == now
    ensures forall c :: c in chats && c != chatId ==> r[c] == chats[c]
  {
    chats[chatId := ChatEntry(userName, userId, now, CountOf(chats, chatId) + 1)]
  }

  /** Every entry has seen at least one message. */
  ghost predicate WellFormed(chats: Chats) {
    forall c :: c in chats ==> chats[c].messageCount >= 1
  }

  /** The sum of `message_count` over all entries, independent of any order. */
  ghost function SumCounts(chats: Chats): nat
    decreases |chats|
  {
    if chats == map[] then 0
    else
      var c :| c in chats;
      chats[c].messageCount + SumCounts(chats - {c})
  }

  lemma RemoveShrinks(chats: Chats, c: string)
    requires c in chats
    ensures |chats - {c}| == |chats| - 1
  {
    assert (chats - {c}).Keys == chats.Keys - {c};
  }

  /** Any entry can be taken out of the sum first. */
  lemma {:induction false} SumCountsRemove(chats: Chats, c: string)
    requires c in chats
    ensures SumCounts(chats) == chats[c].messageCount + SumCounts(chats - {c})
    decreases |chats|
  {
    var d :| d in chats && SumCounts(chats) == chats[d].messageCount + SumCounts(chats - {d});
    if d != c {
      RemoveShrinks(chats, c);
      RemoveShrinks(chats, d);
      SumCountsRemove(chats - {d}, c);
      SumCountsRemove(chats - {c}, d);
      assert chats - {d} - {c} == chats - {c} - {d};
    }
  }

  /** Recording a message adds exactly one to the total over the registry. */
  lemma UpsertAddsOne(chats: Chats, chatId: string, userName: string, userId: string, now: Timestamp)
    ensures SumCounts(Upsert(chats, chatId, userName, userId, now)) == SumCounts(chats) + 1
  {
    var r := Upsert(chats, chatId, userName, userId, now);
    SumCountsRemove(r, chatId);
    if chatId in chats {
      SumCountsRemove(chats, chatId);
      assert r - {chatId} == chats - {chatId};
    } else {
      assert r - {chatId} == chats;
    }
  }

  lemma UpsertKeepsWellFormed(chats: Chats, chatId: string, userName: string, userId: string, now: Timestamp)
    requires WellFormed(chats)
    ensures WellFormed(Upsert(chats, chatId, userName, userId, now))
  {
  }

  /** In a well-formed registry every chat contributes at least one message to the total. */
  lemma {:induction false} ChatsBoundTotal(chats: Chats)
    requires WellFormed(chats)
    ensures |chats| <= SumCounts(chats)
    decreases |chats|
  {
    if chats != map[] {
      var c :| c in chats;
      SumCountsRemove(chats, c);
      RemoveShrinks(chats, c);
      ChatsBoundTotal(chats - {c});
    }
  }

  /** `sum(chat.get('message_count', 0) for chat in active_chats.values())` */
  method TotalMessages(chats: Chats) returns (total: nat)
    ensures total == SumCounts(chats)
  {
    total := 0;
    var rest := chats;
    while rest != map[]
      invariant total + SumCounts(rest) == SumCounts(chats)
      decreases |rest|
    {
      var c :| c in rest;
      SumCountsRemove(rest, c);
      RemoveShrinks(rest, c);
      total := total + rest[c].messageCount;
      rest := rest - {c};
    }
  }
}

=== FILE: relay.dfy ===
/**
 * The relay engine of `vk_teams_bot.py` (and of the older `bot.py`): the
 * long-poll loop that advances the event cursor, records each chat in the
 * registry, forwards events to the webhook and answers chat commands.
 *
 * Everything the loop does to the outside world is an `Action` it emits;
 * everything it learns from the outside world (the poll answer, the clock, the
 * answer to each webhook post) is an input.
 */
module Relay {
  import opened Wrappers
  import opened Http
  import opened Events
  import opened Registry
  import opened WebhookHandler
  import Settings
  import Commands
  import ChatClient

  /** The bot's state: the poll cursor, the registry, the run flag and its webhook handler. */
  datatype Bot = Bot(lastEventId: int, activeChats: Chats, running: bool, handler: Option<Handler>)

  /** What processing an event asks of the outside world, in order. */
  datatype Action =
    | SendToChat(chatId: string, text: string)
    | ForwardToWebhook(payload: WebhookPayload)

  /** What the outside world answers while one event is processed: the clock reading
      and the outcome of the webhook post, if one is made. */
  datatype Effects = Effects(now: Timestamp, webhookOutcome: Outcome<()>)

  datatype Step = Step(bot: Bot, actions: seq<Action>)

  function NewBot(handler: Option<Handler>): Bot {
    Bot(0, map[], true, handler)
  }

  /** `stop`: clears the run flag and nothing else. */
  function Stop(b: Bot): (r: Bot)
    ensures !r.running
    ensures r.lastEventId == b.lastEventId && r.activeChats == b.activeChats && r.handler == b.handler
  {
    b.(running := false)
  }

  /** `get_active_chats`: a copy of the registry, with the same chats and the same entries. */
  function GetActiveChats(b: Bot): (chats: Chats)
    ensures forall c :: c in chats <==> c in b.activeChats
    ensures forall c :: c in chats ==> chats[c] == b.activeChats[c]
  {
    b.activeChats
  }

  // ----- action filters -----

  /** The chat sends among `acts`, in order. */
  function Messages(acts: seq<Action>): seq<Action> {
    if acts == [] then []
    else (if acts[0].SendToChat? then [acts[0]] else []) + Messages(acts[1..])
  }

  /** The webhook posts among `acts`, in order. */
  function Forwards(acts: seq<Action>): seq<Action> {
    if acts == [] then []
    else (if acts[0].ForwardToWebhook? then [acts[0]] else []) + Forwards(acts[1..])
  }

  lemma {:induction false} MessagesAppend(a: seq<Action>, b: seq<Action>)
    ensures Messages(a + b) == Messages(a) + Messages(b)
  {
    if a == [] {
      assert a + b == b;
    } else {
      var head := if a[0].SendToChat? then [a[0]] else [];
      assert (a + b)[0] == a[0] && (a + b)[1..] == a[1..] + b;
      assert Messages(a + b) == head + Messages(a[1..] + b);
      MessagesAppend(a[1..], b);
      assert head + (Messages(a[1..]) + Messages(b)) == (head + Messages(a[1..])) + Messages(b);
    }
  }

  lemma {:induction false} ForwardsAppend(a: seq<Action>, b: seq<Action>)
    ensures Forwards(a + b) == Forwards(a) + Forwards(b)
  {
    if a == [] {
      assert a + b == b;
    } else {
      var head := if a[0].ForwardToWebhook? then [a[0]] else [];
      assert (a + b)[0] == a[0] && (a + b)[1..] == a[1..] + b;
      assert Forwards(a + b) == head + Forwards(a[1..] + b);
      ForwardsAppend(a[1..], b);
      assert head + (Forwards(a[1..]) + Forwards(b)) == (head + Forwards(a[1..])) + Forwards(b);
    }
  }

  lemma FiltersAppend(a: seq<Action>, b: seq<Action>)
    ensures Messages(a + b) == Messages(a) + Messages(b)
    ensures Forwards(a + b) == Forwards(a) + Forwards(b)
  {
    MessagesAppend(a, b);
    ForwardsAppend(a, b);
  }

  // ----- one event -----

  /** The bot forwards events: it has a handler and that handler has a URL. */
  predicate Forwarding(b: Bot) {
    b.handler.Some? && Configured(b.handler.value)
  }

  /** The bot's handler after it has been given `e` to forward. */
  function HandlerAfter(b: Bot, e: Event, fx: Effects): Option<Handler> {
    match b.handler
    case None => None
    case Some(h) => Some(SendToWebhook(h, e, fx.now, fx.webhookOutcome).handler)
  }

  /** The filters on a single action. */
  lemma SingleFilters(a: Action)
    ensures Messages([a]) == (if a.SendToChat? then [a] else [])
    ensures Forwards([a]) == (if a.ForwardToWebhook? then [a] else [])
  {
    assert [a][1..] == [];
  }

  /** The webhook post made for `e`, if the bot forwards at all: no chat send among it. */
  function ForwardActions(b: Bot, e: Event, now: Timestamp): (r: seq<Action>)
    ensures Forwards(r) == r && Messages(r) == []
    ensures |r| == (if Forwarding(b) then 1 else 0)
    ensures Forwarding(b) ==> r == [ForwardToWebhook(Normalize(e, now))]
  {
    if Forwarding(b) then
      var a := ForwardToWebhook(Normalize(e, now));
      SingleFilters(a);
      [a]
    else []
  }

  /** Hands the raw event to the bot's webhook handler, if it has one. */
  function Forward(b: Bot, e: Event, fx: Effects): (s: Step)
    ensures s.bot.lastEventId == b.lastEventId && s.bot.activeChats == b.activeChats && s.bot.running == b.running
    ensures s.bot.handler == HandlerAfter(b, e, fx)
    ensures s.actions == ForwardActions(b, e, fx.now)
  {
    match b.handler
    case None => Step(b, [])
    case Some(h) =>
      var r := SendToWebhook(h, e, fx.now, fx.webhookOutcome);
      Step(b.(handler := Some(r.handler)), if r.posted.Some? then [ForwardToWebhook(r.posted.value)] else [])
  }

  /** `if event_id > self.last_event_id: self.last_event_id = event_id` is the maximum. */
  function AdvanceCursor(cursor: int, e: Event): (c: int)
    ensures c >= cursor && c >= IdOf(e)
    ensures c == cursor || c == IdOf(e)
  {
    if IdOf(e) > cursor then IdOf(e) else cursor
  }

  /** The reply actions for a plain message, given the registry size after recording it. */
  function ReplyActions(k: Commands.BotClass, cfg: Settings.Config, e: Event, activeChats: nat): (r: seq<Action>)
    ensures |r| <= 1
    ensures r != [] <==> Commands.GetsReply(Commands.Classify(TextOf(e)))
    ensures r != [] ==> r == [SendToChat(ChatIdOf(e), Commands.Reply(k, cfg, Commands.Classify(TextOf(e)), activeChats).value)]
    ensures Messages(r) == r && Forwards(r) == []
  {
    var reply := Commands.Reply(k, cfg, Commands.Classify(TextOf(e)), activeChats);
    if reply.Some? then
      var a := SendToChat(ChatIdOf(e), reply.value);
      SingleFilters(a);
      [a]
    else []
  }

  /** The registry entry update for a plain message. */
  function Record(chats: Chats, e: Event, now: Timestamp): Chats {
    Upsert(chats, ChatIdOf(e), UserNameOf(e), UserIdOf(e), now)
  }

  /** `handle_message`: record the chat, forward the event, then answer. The registry and the
      forward come before the empty-text check. */
  function HandleMessage(k: Commands.BotClass, cfg: Settings.Config, b: Bot, e: Event, fx: Effects): (s: Step)
    ensures s.bot.lastEventId == b.lastEventId && s.bot.running == b.running
    ensures s.bot.activeChats == Record(b.activeChats, e, fx.now)
    ensures s.bot.handler == HandlerAfter(b, e, fx)
    ensures s.actions == ForwardActions(b, e, fx.now) + ReplyActions(k, cfg, e, |s.bot.activeChats|)
  {
    var chats := Record(b.activeChats, e, fx.now);
    var fwd := Forward(b.(activeChats := chats), e, fx);
    assert Forwarding(b.(activeChats := chats)) == Forwarding(b);
    Step(fwd.bot, fwd.actions + ReplyActions(k, cfg, e, |chats|))
  }

  /** What `handle_message` asks of the outside world: the webhook post (when one is
      configured) and then at most one reply, to the chat the message came from. */
  lemma HandleMessageActions(k: Commands.BotClass, cfg: Settings.Config, b: Bot, e: Event, fx: Effects)
    ensures var s := HandleMessage(k, cfg, b, e, fx);
            && Forwards(s.actions) == ForwardActions(b, e, fx.now)
            && Messages(s.actions) == ReplyActions(k, cfg, e, |s.bot.activeChats|)
  {
    var s := HandleMessage(k, cfg, b, e, fx);
    FiltersAppend(ForwardActions(b, e, fx.now), ReplyActions(k, cfg, e, |s.bot.activeChats|));
  }

  /** `handle_callback_query`: forward the event and acknowledge the button press in the chat
      of the pressed message. The registry is not touched. */
  function HandleCallback(b: Bot, e: Event, fx: Effects): (s: Step)
    ensures s.bot.lastEventId == b.lastEventId && s.bot.running == b.running
    ensures s.bot.activeChats == b.activeChats
    ensures s.bot.handler == HandlerAfter(b, e, fx)
    ensures s.actions == ForwardActions(b, e, fx.now) + [SendToChat(CallbackChatIdOf(e), Commands.CallbackPrefix + CallbackDataOf(e))]
  {
    var fwd := Forward(b, e, fx);
    Step(fwd.bot, fwd.actions + [SendToChat(CallbackChatIdOf(e), Commands.CallbackPrefix + CallbackDataOf(e))])
  }

  /** What `handle_callback_query` asks of the outside world: the webhook post (when one is
      configured) and one acknowledgement quoting the button's data. */
  lemma HandleCallbackActions(b: Bot, e: Event, fx: Effects)
    ensures var s := HandleCallback(b, e, fx);
            && Forwards(s.actions) == ForwardActions(b, e, fx.now)
            && Messages(s.actions) == [SendToChat(CallbackChatIdOf(e), "Вы нажали: " + CallbackDataOf(e))]
  {
    FiltersAppend(ForwardActions(b, e, fx.now), [SendToChat(CallbackChatIdOf(e), Commands.CallbackPrefix + CallbackDataOf(e))]);
  }

  /** The events a bot class hands to a handler: plain messages, and for the current class
      also button presses. */
  predicate Routed(k: Commands.BotClass, e: Event) {
    IsNewMessage(e) || (k.handlesCallbacks && IsCallback(e))
  }

  /** One iteration of the loop over a batch: advance the cursor, whatever the type, then route. */
  function ProcessEvent(k: Commands.BotClass, cfg: Settings.Config, b: Bot, e: Event, fx: Effects): (s: Step)
    ensures s.bot.lastEventId == AdvanceCursor(b.lastEventId, e)
    ensures s.bot.running == b.running
    ensures s.bot.activeChats == if IsNewMessage(e) then Record(b.activeChats, e, fx.now) else b.activeChats
    ensures s.bot.handler == if Routed(k, e) then HandlerAfter(b, e, fx) else b.handler
    ensures !Routed(k, e) ==> s.actions == []
  {
    var advanced := b.(lastEventId := AdvanceCursor(b.lastEventId, e));
    if IsNewMessage(e) then HandleMessage(k, cfg, advanced, e, fx)
    else if IsCallback(e) && k.handlesCallbacks then HandleCallback(advanced, e, fx)
    else Step(advanced, [])
  }

  /** One event changes the registry only by one more message for a plain message's chat. */
  lemma ProcessEventRegistry(k: Commands.BotClass, cfg: Settings.Config, b: Bot, e: Event, fx: Effects)
    ensures var chats := ProcessEvent(k, cfg, b, e, fx).bot.activeChats;
            && chats.Keys == b.activeChats.Keys + (if IsNewMessage(e) then {ChatIdOf(e)} else {})
            && forall c :: CountOf(chats, c) == CountOf(b.activeChats, c) + NewMessagesFor(c, [e])
  {
    var chats := ProcessEvent(k, cfg, b, e, fx).bot.activeChats;
    SingleMessageCount(e);
    if IsNewMessage(e) {
      assert chats == Upsert(b.activeChats, ChatIdOf(e), UserNameOf(e), UserIdOf(e), fx.now);
    } else {
      assert chats == b.activeChats;
    }
  }

  /** Each routed event is posted to the webhook once when a URL is configured; others not at all. */
  lemma ProcessEventForwards(k: Commands.BotClass, cfg: Settings.Config, b: Bot, e: Event, fx: Effects)
    ensures Forwards(ProcessEvent(k, cfg, b, e, fx).actions) == if Routed(k, e) then ForwardActions(b, e, fx.now) else []
  {
    var advanced := b.(lastEventId := AdvanceCursor(b.lastEventId, e));
    assert Forwarding(advanced) == Forwarding(b);
    if IsNewMessage(e) {
      HandleMessageActions(k, cfg, advanced, e, fx);
    } else if IsCallback(e) && k.handlesCallbacks {
      HandleCallbackActions(advanced, e, fx);
    }
  }

  /** The chat sends one event should produce, given the registry size once it is recorded: the
      reply to a plain message, the acknowledgement of a button press the class handles, and
      nothing for anything else. */
  function EventReplies(k: Commands.BotClass, cfg: Settings.Config, e: Event, activeChats: nat): seq<Action> {
    if IsNewMessage(e) then ReplyActions(k, cfg, e, activeChats)
    else if IsCallback(e) && k.handlesCallbacks then [SendToChat(CallbackChatIdOf(e), Commands.CallbackPrefix + CallbackDataOf(e))]
    else []
  }

  /** Each routed event is answered in the chat as its handler answers it. */
  lemma ProcessEventMessages(k: Commands.BotClass, cfg: Settings.Config, b: Bot, e: Event, fx: Effects)
    ensures var s := ProcessEvent(k, cfg, b, e, fx);
            Messages(s.actions) == EventReplies(k, cfg, e, |s.bot.activeChats|)
  {
    var advanced := b.(lastEventId := AdvanceCursor(b.lastEventId, e));
    if IsNewMessage(e) {
      HandleMessageActions(k, cfg, advanced, e, fx);
    } else if IsCallback(e) && k.handlesCallbacks {
      HandleCallbackActions(advanced, e, fx);
    }
  }

  // ----- reference definitions over a sequence of events -----

  /** The largest of `cursor` and the ids of `events`. */
  function MaxIdFrom(cursor: int, events: seq<Event>): (m: int)
    ensures m >= cursor
    ensures forall i :: 0 <= i < |events| ==> m >= IdOf(events[i])
    ensures m == cursor || exists i :: 0 <= i < |events| && m == IdOf(events[i])
  {
    if events == [] then cursor
    else
      var rest := MaxIdFrom(cursor, events[1..]);
      assert forall i :: 1 <= i < |events| ==> events[i] == events[1..][i - 1];
      if IdOf(events[0]) > rest then IdOf(events[0]) else rest
  }

  /** The chats that sent a plain message in `events`. */
  function MessageChats(events: seq<Event>): set<string> {
    set i | 0 <= i < |events| && IsNewMessage(events[i]) :: ChatIdOf(events[i])
  }

  /** The chats of a non-empty list are those of its prefix plus, for a plain message, its sender. */
  lemma MessageChatsLast(events: seq<Event>)
    requires events != []
    ensures var n := |events| - 1;
            MessageChats(events) == MessageChats(events[..n]) + (if IsNewMessage(events[n]) then {ChatIdOf(events[n])} else {})
  {
    var n := |events| - 1;
    var extra := if IsNewMessage(events[n]) then {ChatIdOf(events[n])} else {};
    forall c | c in MessageChats(events) ensures c in MessageChats(events[..n]) + extra {
      var i :| 0 <= i < |events| && IsNewMessage(events[i]) && ChatIdOf(events[i]) == c;
      if i < n { assert events[..n][i] == events[i]; }
    }
    forall c | c in MessageChats(events[..n]) ensures c in MessageChats(events) {
      var i :| 0 <= i < n && IsNewMessage(events[..n][i]) && ChatIdOf(events[..n][i]) == c;
      assert events[..n][i] == events[i];
    }
  }

  /** How many plain messages `events` holds for `chatId`. */
  function NewMessagesFor(chatId: string, events: seq<Event>): nat {
    if events == [] then 0
    else (if IsNewMessage(events[0]) && ChatIdOf(events[0]) == chatId then 1 else 0)
         + NewMessagesFor(chatId, events[1..])
  }

  /** A single event is one plain message of its own chat, or none at all. */
  lemma SingleMessageCount(e: Event)
    ensures forall c :: NewMessagesFor(c, [e]) == if IsNewMessage(e) && ChatIdOf(e) == c then 1 else 0
  {
    assert [e][1..] == [];
  }

  /** How many events of `events` the bot class hands to a handler. */
  function RoutedCount(k: Commands.BotClass, events: seq<Event>): nat {
    if events == [] then 0
    else (if Routed(k, events[0]) then 1 else 0) + RoutedCount(k, events[1..])
  }

  /** How many routed events of a batch got status 200 from the webhook. */
  function WebhookSuccesses(k: Commands.BotClass, events: seq<Event>, world: nat -> Effects): nat {
    if events == [] then 0
    else
      var n := |events| - 1;
      WebhookSuccesses(k, events[..n], world)
      + (if Routed(k, events[n]) && world(n).webhookOutcome.IsOk() then 1 else 0)
  }

  /** The webhook posts a batch should produce: for each routed event in turn, its normalised
      payload stamped with that event's clock reading, when the bot has a URL to post to. */
  function RoutedPosts(k: Commands.BotClass, forwarding: bool, events: seq<Event>, world: nat -> Effects): seq<Action> {
    if events == [] then []
    else
      var n := |events| - 1;
      RoutedPosts(k, forwarding, events[..n], world)
      + (if Routed(k, events[n]) && forwarding then [ForwardToWebhook(Normalize(events[n], world(n).now))] else [])
  }

  /** The chat sends a batch should produce, starting from the chats in `known`: each event's
      replies in turn, a plain message's `/status` counting the chats known once that message
      is recorded. */
  function BatchReplies(k: Commands.BotClass, cfg: Settings.Config, known: set<string>, events: seq<Event>): seq<Action> {
    if events == [] then []
    else
      var n := |events| - 1;
      BatchReplies(k, cfg, known, events[..n])
      + EventReplies(k, cfg, events[n], |known + MessageChats(events)|)
  }

  lemma {:induction false} CountsAppend(chatId: string, a: seq<Event>, b: seq<Event>)
    ensures NewMessagesFor(chatId, a + b) == NewMessagesFor(chatId, a) + NewMessagesFor(chatId, b)
  {
    if a == [] {
      assert a + b == b;
    } else {
      assert (a + b)[0] == a[0] && (a + b)[1..] == a[1..] + b;
      CountsAppend(chatId, a[1..], b);
    }
  }

  lemma {:induction false} RoutedCountAppend(k: Commands.BotClass, a: seq<Event>, b: seq<Event>)
    ensures RoutedCount(k, a + b) == RoutedCount(k, a) + RoutedCount(k, b)
  {
    if a == [] {
      assert a + b == b;
    } else {
      assert (a + b)[0] == a[0] && (a + b)[1..] == a[1..] + b;
      RoutedCountAppend(k, a[1..], b);
    }
  }

  lemma {:induction false} MaxIdAppend(cursor: int, a: seq<Event>, b: seq<Event>)
    ensures MaxIdFrom(cursor, a + b) == MaxIdFrom(MaxIdFrom(cursor, a), b)
  {
    var lhs := MaxIdFrom(cursor, a + b);
    var m := MaxIdFrom(cursor, a);
    var rhs := MaxIdFrom(m, b);
    assert lhs <= rhs by {
      if lhs != cursor {
        var i :| 0 <= i < |a + b| && lhs == IdOf((a + b)[i]);
        if i < |a| {
          assert (a + b)[i] == a[i];
        } else {
          assert (a + b)[i] == b[i - |a|];
        }
      }
    }
    assert m <= lhs by {
      if m != cursor {
        var i :| 0 <= i < |a| && m == IdOf(a[i]);
        assert (a + b)[i] == a[i];
      }
    }
    assert rhs <= lhs by {
      if rhs != m {
        var j :| 0 <= j < |b| && rhs == IdOf(b[j]);
        assert (a + b)[|a| + j] == b[j];
      }
    }
  }

  function Last(events: seq<Event>): Event
    requires events != []
  {
    events[|events| - 1]
  }

  lemma SplitLast(events: seq<Event>)
    requires events != []
    ensures events == events[..|events| - 1] + [Last(events)]
  {
  }

  /** The loop's inner `for` over a batch; event `i` sees `world(i)`. The cursor ends at the
      largest id seen, whatever the types of the events. */
  function ProcessBatch(k: Commands.BotClass, cfg: Settings.Config, b: Bot, events: seq<Event>, world: nat -> Effects): (s: Step)
    ensures s.bot.lastEventId == MaxIdFrom(b.lastEventId, events)
    ensures s.bot.running == b.running
    ensures s.bot.handler.Some? <==> b.handler.Some?
    ensures b.handler.Some? ==> s.bot.handler.value.url == b.handler.value.url
    decreases |events|
  {
    if events == [] then Step(b, [])
    else
      var n := |events| - 1;
      var prefix := ProcessBatch(k, cfg, b, events[..n], world);
      var last := ProcessEvent(k, cfg, prefix.bot, events[n], world(n));
      SplitLast(events);
      MaxIdAppend(b.lastEventId, events[..n], [events[n]]);
      Step(last.bot, prefix.actions + last.actions)
  }

  lemma {:induction false} ProcessBatchLast(k: Commands.BotClass, cfg: Settings.Config, b: Bot, events: seq<Event>, world: nat -> Effects)
    requires events != []
    ensures var n := |events| - 1;
            var prefix := ProcessBatch(k, cfg, b, events[..n], world);
            var last := ProcessEvent(k, cfg, prefix.bot, events[n], world(n));
            ProcessBatch(k, cfg, b, events, world) == Step(last.bot, prefix.actions + last.actions)
  {
  }

  /** After a batch a chat's count has gone up by the number of plain messages it sent in it. */
  lemma {:induction false} BatchCounts(k: Commands.BotClass, cfg: Settings.Config, b: Bot, events: seq<Event>, world: nat -> Effects)
    ensures forall c :: CountOf(ProcessBatch(k, cfg, b, events, world).bot.activeChats, c)
                          == CountOf(b.activeChats, c) + NewMessagesFor(c, events)
    decreases |events|
  {
    if events != [] {
      var n := |events| - 1;
      var prefix := ProcessBatch(k, cfg, b, events[..n], world);
      var last := ProcessEvent(k, cfg, prefix.bot, events[n], world(n));
      ProcessBatchLast(k, cfg, b, events, world);
      BatchCounts(k, cfg, b, events[..n], world);
      ProcessEventRegistry(k, cfg, prefix.bot, events[n], world(n));
      SplitLast(events);
      forall c
        ensures CountOf(last.bot.activeChats, c) == CountOf(b.activeChats, c) + NewMessagesFor(c, events)
      {
        CountsAppend(c, events[..n], [events[n]]);
      }
    }
  }

  /** After a batch the registry has gained exactly the chats that sent a plain message in it. */
  lemma {:induction false} BatchKeys(k: Commands.BotClass, cfg: Settings.Config, b: Bot, events: seq<Event>, world: nat -> Effects)
    ensures ProcessBatch(k, cfg, b, events, world).bot.activeChats.Keys == b.activeChats.Keys + MessageChats(events)
    decreases |events|
  {
    if events != [] {
      var n := |events| - 1;
      var prefix := ProcessBatch(k, cfg, b, events[..n], world);
      ProcessBatchLast(k, cfg, b, events, world);
      BatchKeys(k, cfg, b, events[..n], world);
      ProcessEventRegistry(k, cfg, prefix.bot, events[n], world(n));
      SplitLast(events);
      MessageChatsLast(events);
    }
  }

  /** One event moves the bot's webhook counters only up: by one sent for a routed event whose
      post got status 200, and not at all otherwise. */
  lemma ProcessEventCounters(k: Commands.BotClass, cfg: Settings.Config, b: Bot, e: Event, fx: Effects)
    requires b.handler.Some?
    ensures var h := ProcessEvent(k, cfg, b, e, fx).bot.handler.value;
            && Grows(b.handler.value.stats, h.stats)
            && h.stats.sentToN8n == b.handler.value.stats.sentToN8n
                 + (if Forwarding(b) && Routed(k, e) && fx.webhookOutcome.IsOk() then 1 else 0)
            && h.stats.receivedFromN8n == b.handler.value.stats.receivedFromN8n
  {
  }

  /** Over a batch the webhook counters never go down; with a URL configured, the sent counter
      grows by the number of posts answered with 200, and without one it stays. The received
      counter is not the bot's to move. */
  lemma {:induction false} BatchCounters(k: Commands.BotClass, cfg: Settings.Config, b: Bot, events: seq<Event>, world: nat -> Effects)
    requires b.handler.Some?
    ensures var h := ProcessBatch(k, cfg, b, events, world).bot.handler.value;
            && Grows(b.handler.value.stats, h.stats)
            && h.stats.sentToN8n == b.handler.value.stats.sentToN8n + (if Forwarding(b) then WebhookSuccesses(k, events, world) else 0)
            && h.stats.receivedFromN8n == b.handler.value.stats.receivedFromN8n
    decreases |events|
  {
    if events != [] {
      var n := |events| - 1;
      var prefix := ProcessBatch(k, cfg, b, events[..n], world);
      ProcessBatchLast(k, cfg, b, events, world);
      BatchCounters(k, cfg, b, events[..n], world);
      ProcessEventCounters(k, cfg, prefix.bot, events[n], world(n));
      assert Forwarding(prefix.bot) == Forwarding(b);
    }
  }

  /** With a URL configured every routed event of a batch is posted to the webhook once, in
      batch order, with its own normalised payload; without one nothing is posted. */
  lemma {:induction false} BatchForwards(k: Commands.BotClass, cfg: Settings.Config, b: Bot, events: seq<Event>, world: nat -> Effects)
    ensures Forwards(ProcessBatch(k, cfg, b, events, world).actions) == RoutedPosts(k, Forwarding(b), events, world)
    ensures |Forwards(ProcessBatch(k, cfg, b, events, world).actions)| == (if Forwarding(b) then RoutedCount(k, events) else 0)
    decreases |events|
  {
    if events != [] {
      var n := |events| - 1;
      var prefix := ProcessBatch(k, cfg, b, events[..n], world);
      var last := ProcessEvent(k, cfg, prefix.bot, events[n], world(n));
      ProcessBatchLast(k, cfg, b, events, world);
      BatchForwards(k, cfg, b, events[..n], world);
      SplitLast(events);
      RoutedCountAppend(k, events[..n], [events[n]]);
      FiltersAppend(prefix.actions, last.actions);
      ProcessEventForwards(k, cfg, prefix.bot, events[n], world(n));
      assert Forwarding(prefix.bot) == Forwarding(b);
    }
  }

  /** Every routed event of a batch is answered in the chat, in batch order, with the reply its
      handler computes: so no reply or acknowledgement is dropped, duplicated or reordered. */
  lemma {:induction false} BatchSends(k: Commands.BotClass, cfg: Settings.Config, b: Bot, events: seq<Event>, world: nat -> Effects)
    ensures Messages(ProcessBatch(k, cfg, b, events, world).actions) == BatchReplies(k, cfg, b.activeChats.Keys, events)
    decreases |events|
  {
    if events != [] {
      var n := |events| - 1;
      var prefix := ProcessBatch(k, cfg, b, events[..n], world);
      var last := ProcessEvent(k, cfg, prefix.bot, events[n], world(n));
      ProcessBatchLast(k, cfg, b, events, world);
      BatchSends(k, cfg, b, events[..n], world);
      BatchKeys(k, cfg, b, events, world);
      FiltersAppend(prefix.actions, last.actions);
      ProcessEventMessages(k, cfg, prefix.bot, events[n], world(n));
      assert |last.bot.activeChats| == |b.activeChats.Keys + MessageChats(events)|;
    }
  }

}

=== FILE: relay_properties.dfy ===
/**
 * Properties of the relay over whole runs of `polling_loop` and over single
 * events: what the cursor, the registry and the webhook counters amount to
 * after any sequence of polls, and the per-event promises of the handlers.
 */
module RelayProperties {
  import opened Wrappers
  import opened Http
  import opened Events
  import opened Registry
  import opened WebhookHandler
  import opened Relay
  import Settings
  import Commands
  import ChatClient
  import LegacyBot
  import Text

  /** One turn of `polling_loop`: a long-poll answer together with what the world answers
      while its events are processed, or an interrupt that ends the loop. */
  datatype Tick = Poll(fetched: Outcome<ChatClient.PollBody>, world: nat -> Effects) | Interrupt

  /** `polling_loop`: while the run flag is set, each poll's batch is processed in turn;
      an interrupt clears the flag and leaves the loop. A stopped bot does nothing. */
  function Run(k: Commands.BotClass, cfg: Settings.Config, b: Bot, ticks: seq<Tick>): (s: Step)
    ensures !b.running ==> s == Step(b, [])
    ensures s.bot.lastEventId >= b.lastEventId
    ensures s.bot.running <==> b.running && forall i :: 0 <= i < |ticks| ==> ticks[i].Poll?
    ensures s.bot.handler.Some? <==> b.handler.Some?
    ensures b.handler.Some? ==> s.bot.handler.value.url == b.handler.value.url
    decreases |ticks|
  {
    if ticks == [] || !b.running then Step(b, [])
    else match ticks[0]
      case Interrupt => Step(Stop(b), [])
      case Poll(o, world) =>
        var batch := ProcessBatch(k, cfg, b, ChatClient.FetchedBatch(o), world);
        var rest := Run(k, cfg, batch.bot, ticks[1..]);
        assert forall i :: 1 <= i < |ticks| ==> ticks[i] == ticks[1..][i - 1];
        Step(rest.bot, batch.actions + rest.actions)
  }

  /** The events a running loop iterates over: the batches of the polls before the first interrupt. */
  function PolledEvents(ticks: seq<Tick>): seq<Event> {
    if ticks == [] then []
    else match ticks[0]
      case Interrupt => []
      case Poll(o, _) => ChatClient.FetchedBatch(o) + PolledEvents(ticks[1..])
  }

  lemma {:induction false} MessageChatsAppend(a: seq<Event>, b: seq<Event>)
    ensures MessageChats(a + b) == MessageChats(a) + MessageChats(b)
  {
    forall c | c in MessageChats(a + b) ensures c in MessageChats(a) + MessageChats(b) {
      var i :| 0 <= i < |a + b| && IsNewMessage((a + b)[i]) && ChatIdOf((a + b)[i]) == c;
      if i < |a| {
        assert (a + b)[i] == a[i];
      } else {
        assert (a + b)[i] == b[i - |a|];
      }
    }
    forall c | c in MessageChats(a) ensures c in MessageChats(a + b) {
      var i :| 0 <= i < |a| && IsNewMessage(a[i]) && ChatIdOf(a[i]) == c;
      assert (a + b)[i] == a[i];
    }
    forall c | c in MessageChats(b) ensures c in MessageChats(a + b) {
      var i :| 0 <= i < |b| && IsNewMessage(b[i]) && ChatIdOf(b[i]) == c;
      assert (a + b)[|a| + i] == b[i];
    }
  }

  /** Over a run the cursor ends at the largest id among all events polled, whatever their types. */
  lemma {:induction false} RunCursor(k: Commands.BotClass, cfg: Settings.Config, b: Bot, ticks: seq<Tick>)
    requires b.running
    ensures Run(k, cfg, b, ticks).bot.lastEventId == MaxIdFrom(b.lastEventId, PolledEvents(ticks))
    decreases |ticks|
  {
    if ticks != [] {
      match ticks[0]
      case Interrupt =>
      case Poll(o, world) =>
        var events := ChatClient.FetchedBatch(o);
        var batch := ProcessBatch(k, cfg, b, events, world);
        RunCursor(k, cfg, batch.bot, ticks[1..]);
        MaxIdAppend(b.lastEventId, events, PolledEvents(ticks[1..]));
    }
  }

  /** Over a run each chat's count goes up by the number of plain messages it sent. */
  lemma {:induction false} RunCounts(k: Commands.BotClass, cfg: Settings.Config, b: Bot, ticks: seq<Tick>)
    requires b.running
    ensures forall c :: CountOf(Run(k, cfg, b, ticks).bot.activeChats, c)
                          == CountOf(b.activeChats, c) + NewMessagesFor(c, PolledEvents(ticks))
    decreases |ticks|
  {
    if ticks != [] {
      match ticks[0]
      case Interrupt =>
      case Poll(o, world) =>
        var events := ChatClient.FetchedBatch(o);
        var batch := ProcessBatch(k, cfg, b, events, world);
        BatchCounts(k, cfg, b, events, world);
        RunCounts(k, cfg, batch.bot, ticks[1..]);
        forall c
          ensures NewMessagesFor(c, PolledEvents(ticks)) == NewMessagesFor(c, events) + NewMessagesFor(c, PolledEvents(ticks[1..]))
        {
          CountsAppend(c, events, PolledEvents(ticks[1..]));
        }
    }
  }

  /** Over a run the registry gains exactly the chats that sent a plain message. */
  lemma {:induction false} RunKeys(k: Commands.BotClass, cfg: Settings.Config, b: Bot, ticks: seq<Tick>)
    requires b.running
    ensures Run(k, cfg, b, ticks).bot.activeChats.Keys == b.activeChats.Keys + MessageChats(PolledEvents(ticks))
    decreases |ticks|
  {
    if ticks != [] {
      match ticks[0]
      case Interrupt =>
        assert MessageChats([]) == {};
      case Poll(o, world) =>
        var events := ChatClient.FetchedBatch(o);
        var batch := ProcessBatch(k, cfg, b, events, world);
        BatchKeys(k, cfg, b, events, world);
        RunKeys(k, cfg, batch.bot, ticks[1..]);
        MessageChatsAppend(events, PolledEvents(ticks[1..]));
    }
    else {
      assert MessageChats([]) == {};
    }
  }

  /** The webhook posts a run should produce: each batch's routed posts in turn, up to the
      first interrupt. */
  function RunPosts(k: Commands.BotClass, forwarding: bool, ticks: seq<Tick>): seq<Action> {
    if ticks == [] then []
    else match ticks[0]
      case Interrupt => []
      case Poll(o, world) => RoutedPosts(k, forwarding, ChatClient.FetchedBatch(o), world) + RunPosts(k, forwarding, ticks[1..])
  }

  /** The chat sends a run should produce: each batch's replies in turn, up to the first
      interrupt, with the chats known growing by each batch's plain-message senders. */
  function RunReplies(k: Commands.BotClass, cfg: Settings.Config, known: set<string>, ticks: seq<Tick>): seq<Action>
    decreases |ticks|
  {
    if ticks == [] then []
    else match ticks[0]
      case Interrupt => []
      case Poll(o, _) =>
        var events := ChatClient.FetchedBatch(o);
        BatchReplies(k, cfg, known, events) + RunReplies(k, cfg, known + MessageChats(events), ticks[1..])
  }

  /** Over a run the webhook receives exactly the routed events' payloads, in the order polled. */
  lemma {:induction false} RunForwards(k: Commands.BotClass, cfg: Settings.Config, b: Bot, ticks: seq<Tick>)
    requires b.running
    ensures Forwards(Run(k, cfg, b, ticks).actions) == RunPosts(k, Forwarding(b), ticks)
    decreases |ticks|
  {
    if ticks != [] {
      match ticks[0]
      case Interrupt =>
      case Poll(o, world) =>
        var events := ChatClient.FetchedBatch(o);
        var batch := ProcessBatch(k, cfg, b, events, world);
        var rest := Run(k, cfg, batch.bot, ticks[1..]);
        BatchForwards(k, cfg, b, events, world);
        RunForwards(k, cfg, batch.bot, ticks[1..]);
        assert Forwarding(batch.bot) == Forwarding(b);
        FiltersAppend(batch.actions, rest.actions);
    }
  }

  /** Over a run every routed event is answered in the chat, in the order polled, with the
      `/status` count of the chats known at that point of the run. */
  lemma {:induction false} RunSends(k: Commands.BotClass, cfg: Settings.Config, b: Bot, ticks: seq<Tick>)
    requires b.running
    ensures Messages(Run(k, cfg, b, ticks).actions) == RunReplies(k, cfg, b.activeChats.Keys, ticks)
    decreases |ticks|
  {
    if ticks != [] {
      match ticks[0]
      case Interrupt =>
      case Poll(o, world) =>
        var events := ChatClient.FetchedBatch(o);
        var batch := ProcessBatch(k, cfg, b, events, world);
        var rest := Run(k, cfg, batch.bot, ticks[1..]);
        BatchSends(k, cfg, b, events, world);
        BatchKeys(k, cfg, b, events, world);
        RunSends(k, cfg, batch.bot, ticks[1..]);
        FiltersAppend(batch.actions, rest.actions);
    }
  }

  /** From a fresh bot: the cursor is the largest id polled (or 0), the registry holds exactly
      the chats that sent a plain message, and each count is the number of such messages. */
  lemma FreshRun(k: Commands.BotClass, cfg: Settings.Config, handler: Option<Handler>, ticks: seq<Tick>)
    ensures var s := Run(k, cfg, NewBot(handler), ticks);
            && s.bot.lastEventId == MaxIdFrom(0, PolledEvents(ticks))
            && s.bot.activeChats.Keys == MessageChats(PolledEvents(ticks))
            && forall c :: CountOf(s.bot.activeChats, c) == NewMessagesFor(c, PolledEvents(ticks))
  {
    RunCursor(k, cfg, NewBot(handler), ticks);
    RunCounts(k, cfg, NewBot(handler), ticks);
    RunKeys(k, cfg, NewBot(handler), ticks);
  }

  /** Over a run the webhook counters of the bot's handler never go down. */
  lemma {:induction false} RunGrows(k: Commands.BotClass, cfg: Settings.Config, b: Bot, ticks: seq<Tick>)
    requires b.handler.Some?
    ensures Grows(b.handler.value.stats, Run(k, cfg, b, ticks).bot.handler.value.stats)
    decreases |ticks|
  {
    if ticks != [] && b.running {
      match ticks[0]
      case Interrupt =>
      case Poll(o, world) =>
        var events := ChatClient.FetchedBatch(o);
        var batch := ProcessBatch(k, cfg, b, events, world);
        BatchCounters(k, cfg, b, events, world);
        RunGrows(k, cfg, batch.bot, ticks[1..]);
        GrowsTransitive(b.handler.value.stats, batch.bot.handler.value.stats,
                        Run(k, cfg, batch.bot, ticks[1..]).bot.handler.value.stats);
    }
  }

  /** A poll that fails (any status but 200, a body that is not JSON, a timeout or a network
      error) is skipped: the loop carries on with the state it had. */
  lemma FailedPollSkipped(k: Commands.BotClass, cfg: Settings.Config, b: Bot, o: Outcome<ChatClient.PollBody>,
                          world: nat -> Effects, ticks: seq<Tick>)
    requires !(o.IsOk() && o.body.Json?)
    ensures Run(k, cfg, b, [Poll(o, world)] + ticks) == Run(k, cfg, b, ticks)
  {
    assert ([Poll(o, world)] + ticks)[1..] == ticks;
  }

  // ----- single events -----

  /** A plain message with no text is still recorded and forwarded, but gets no reply. */
  lemma EmptyMessageCountedNotAnswered(k: Commands.BotClass, cfg: Settings.Config, b: Bot, e: Event, fx: Effects)
    requires IsNewMessage(e) && TextOf(e) == ""
    ensures var s := ProcessEvent(k, cfg, b, e, fx);
            && CountOf(s.bot.activeChats, ChatIdOf(e)) == CountOf(b.activeChats, ChatIdOf(e)) + 1
            && Forwards(s.actions) == ForwardActions(b, e, fx.now)
            && Messages(s.actions) == []
  {
    var advanced := b.(lastEventId := AdvanceCursor(b.lastEventId, e));
    HandleMessageActions(k, cfg, advanced, e, fx);
    ProcessEventForwards(k, cfg, b, e, fx);
  }

  /** `/status` reports the registry size after the current chat has been recorded, so the
      count always includes the chat that asks. */
  lemma StatusCountsAskingChat(k: Commands.BotClass, cfg: Settings.Config, b: Bot, e: Event, fx: Effects)
    requires IsNewMessage(e) && TextOf(e) == "/status"
    ensures var s := ProcessEvent(k, cfg, b, e, fx);
            && ChatIdOf(e) in s.bot.activeChats
            && |s.bot.activeChats| == |b.activeChats| + (if ChatIdOf(e) in b.activeChats then 0 else 1)
            && Messages(s.actions) == [SendToChat(ChatIdOf(e), k.status(cfg, |s.bot.activeChats|))]
  {
    var advanced := b.(lastEventId := AdvanceCursor(b.lastEventId, e));
    HandleMessageActions(k, cfg, advanced, e, fx);
    var chats := Record(b.activeChats, e, fx.now);
    if ChatIdOf(e) in b.activeChats {
      assert chats.Keys == b.activeChats.Keys;
    } else {
      assert chats.Keys == b.activeChats.Keys + {ChatIdOf(e)};
    }
  }

  /** Plain text that is not a command is echoed to its chat with the class's prefix. */
  lemma EchoReply(k: Commands.BotClass, cfg: Settings.Config, b: Bot, e: Event, fx: Effects)
    requires IsNewMessage(e) && TextOf(e) != "" && TextOf(e)[0] != '/'
    ensures Messages(ProcessEvent(k, cfg, b, e, fx).actions) == [SendToChat(ChatIdOf(e), k.echoPrefix + TextOf(e))]
  {
    var advanced := b.(lastEventId := AdvanceCursor(b.lastEventId, e));
    var s := HandleMessage(k, cfg, advanced, e, fx);
    assert ProcessEvent(k, cfg, b, e, fx) == s;
    HandleMessageActions(k, cfg, advanced, e, fx);
    assert Commands.Classify(TextOf(e)) == Commands.Echo(TextOf(e)) by {
      assert !Text.StartsWith(TextOf(e), "/");
    }
  }

  /** A worked case: "hello" from chat `c1` with id 6, after one earlier message from `c1`
      and cursor 5, is echoed with the `Эхо: ` prefix, makes the count 2 and moves the cursor to 6. */
  lemma HelloScenario(cfg: Settings.Config, b: Bot, fx: Effects)
    requires b.lastEventId == 5 && CountOf(b.activeChats, "c1") == 1
    ensures var p := Payload(Some("hello"), Some("c1"), None, None, None, None, None, None, None);
            var e := Event(Some(6), Some(NewMessage), p);
            var s := ProcessEvent(Commands.Current, cfg, b, e, fx);
            && Messages(s.actions) == [SendToChat("c1", "Эхо: " + "hello")]
            && CountOf(s.bot.activeChats, "c1") == 2
            && s.bot.lastEventId == 6
  {
    var p := Payload(Some("hello"), Some("c1"), None, None, None, None, None, None, None);
    var e := Event(Some(6), Some(NewMessage), p);
    assert IsNewMessage(e) && IdOf(e) == 6;
    assert TextOf(e) == "hello" && ChatIdOf(e) == "c1";
    EchoReply(Commands.Current, cfg, b, e, fx);
    assert Commands.Current.echoPrefix == "Эхо: ";
    assert ProcessEvent(Commands.Current, cfg, b, e, fx).bot.activeChats == Record(b.activeChats, e, fx.now);
  }

  /** An event whose id is not above the cursor is handled all the same: there is no
      de-duplication, only the cursor stays put. */
  lemma StaleEventStillHandled(k: Commands.BotClass, cfg: Settings.Config, b: Bot, e: Event, fx: Effects)
    requires IsNewMessage(e) && IdOf(e) <= b.lastEventId
    ensures var s := ProcessEvent(k, cfg, b, e, fx);
            && s.bot.lastEventId == b.lastEventId
            && CountOf(s.bot.activeChats, ChatIdOf(e)) == CountOf(b.activeChats, ChatIdOf(e)) + 1
  {
  }

  /** The same message delivered twice in a batch is counted twice. */
  lemma ReplayCountedTwice(k: Commands.BotClass, cfg: Settings.Config, b: Bot, e: Event, world: nat -> Effects)
    requires IsNewMessage(e)
    ensures CountOf(ProcessBatch(k, cfg, b, [e, e], world).bot.activeChats, ChatIdOf(e)) == CountOf(b.activeChats, ChatIdOf(e)) + 2
  {
    BatchCounts(k, cfg, b, [e, e], world);
    assert [e, e][1..] == [e] && [e][1..] == [];
    assert NewMessagesFor(ChatIdOf(e), [e]) == 1;
    assert NewMessagesFor(ChatIdOf(e), [e, e]) == 2;
  }

  /** The chat a forwarded plain message names is the registry key it was recorded under. */
  lemma ForwardedMessageChatIsRecorded(k: Commands.BotClass, cfg: Settings.Config, b: Bot, e: Event, fx: Effects)
    requires IsNewMessage(e) && Forwarding(b)
    ensures var s := ProcessEvent(k, cfg, b, e, fx);
            && Forwards(s.actions) == [ForwardToWebhook(Normalize(e, fx.now))]
            && Normalize(e, fx.now).data.chatId in s.bot.activeChats
  {
    ProcessEventForwards(k, cfg, b, e, fx);
    assert ForwardActions(b, e, fx.now) == [ForwardToWebhook(Normalize(e, fx.now))];
    KindsExclusive(e);
    assert ProcessEvent(k, cfg, b, e, fx).bot.activeChats == Record(b.activeChats, e, fx.now);
  }

  /** For a button press the forwarded chat is the chat the acknowledgement goes to. */
  lemma ForwardedCallbackChatIsAnswered(cfg: Settings.Config, b: Bot, e: Event, fx: Effects)
    requires IsCallback(e) && Forwarding(b)
    ensures var s := ProcessEvent(Commands.Current, cfg, b, e, fx);
            && Forwards(s.actions) == [ForwardToWebhook(Normalize(e, fx.now))]
            && Messages(s.actions) == [SendToChat(Normalize(e, fx.now).data.chatId, "Вы нажали: " + CallbackDataOf(e))]
            && s.bot.activeChats == b.activeChats
  {
    var advanced := b.(lastEventId := AdvanceCursor(b.lastEventId, e));
    HandleCallbackActions(advanced, e, fx);
    ProcessEventForwards(Commands.Current, cfg, b, e, fx);
  }

  /** The legacy class ignores button presses: no reply, no forward, no registry change. */
  lemma LegacyIgnoresCallbacks(cfg: Settings.Config, b: Bot, e: Event, fx: Effects)
    requires IsCallback(e)
    ensures var s := ProcessEvent(LegacyBot.Legacy, cfg, b, e, fx);
            && s.actions == [] && s.bot == b.(lastEventId := AdvanceCursor(b.lastEventId, e))
  {
  }

  /** The two bot classes keep the same registry over any batch: they differ only in texts
      and in button presses, which never touch it. */
  lemma {:induction false} ClassesAgreeOnRegistry(cfg: Settings.Config, b1: Bot, b2: Bot, events: seq<Event>, world: nat -> Effects)
    requires b1.activeChats == b2.activeChats && b1.lastEventId == b2.lastEventId
    ensures var s1 := ProcessBatch(Commands.Current, cfg, b1, events, world);
            var s2 := ProcessBatch(LegacyBot.Legacy, cfg, b2, events, world);
            s1.bot.activeChats == s2.bot.activeChats && s1.bot.lastEventId == s2.bot.lastEventId
    decreases |events|
  {
    if events != [] {
      var n := |events| - 1;
      ProcessBatchLast(Commands.Current, cfg, b1, events, world);
      ProcessBatchLast(LegacyBot.Legacy, cfg, b2, events, world);
      ClassesAgreeOnRegistry(cfg, b1, b2, events[..n], world);
    }
  }

  /** Counting over a batch: how many plain messages it holds. */
  function MessageTotal(events: seq<Event>): nat {
    if events == [] then 0
    else
      var n := |events| - 1;
      MessageTotal(events[..n]) + (if IsNewMessage(events[n]) then 1 else 0)
  }

  /** The sum of all counts grows by the number of plain messages in a batch, and every
      entry keeps at least one message. */
  lemma {:induction false} BatchTotal(k: Commands.BotClass, cfg: Settings.Config, b: Bot, events: seq<Event>, world: nat -> Effects)
    requires WellFormed(b.activeChats)
    ensures var chats := ProcessBatch(k, cfg, b, events, world).bot.activeChats;
            && SumCounts(chats) == SumCounts(b.activeChats) + MessageTotal(events)
            && WellFormed(chats)
    decreases |events|
  {
    if events != [] {
      var n := |events| - 1;
      var prefix := ProcessBatch(k, cfg, b, events[..n], world);
      ProcessBatchLast(k, cfg, b, events, world);
      BatchTotal(k, cfg, b, events[..n], world);
      if IsNewMessage(events[n]) {
        var e := events[n];
        UpsertAddsOne(prefix.bot.activeChats, ChatIdOf(e), UserNameOf(e), UserIdOf(e), world(n).now);
        UpsertKeepsWellFormed(prefix.bot.activeChats, ChatIdOf(e), UserNameOf(e), UserIdOf(e), world(n).now);
      }
    }
  }
}

=== FILE: settings.dfy ===
/**
 * The configuration values the core reads. Loading them from the environment
 * is not part of this model; they arrive as one record.
 */
module Settings {

  /** Only the values the modelled code reads: the chat API URL and the webhook URL (both shown
      by `/status`), and the environment name `bot.py`'s `/status` shows. */
  datatype Config = Config(
    apiUrl: string,
    webhookUrl: string,
    environment: string)
}

=== FILE: text.dfy ===
/**
 * The few Python string operations the relay relies on: `str.strip()`,
 * `str.startswith("/")` and the decimal rendering of an `int` inside an f-string.
 * Strings are sequences of Unicode scalar values, as Python's `str` is.
 */
module Text {

  /** Python's `str.isspace()` for one character: the Unicode whitespace set. */
  predicate IsSpace(c: char) {
    || ('\U{9}' <= c <= '\U{D}')
    || ('\U{1C}' <= c <= '\U{20}')
    || c == '\U{85}' || c == '\U{A0}' || c == '\U{1680}'
    || ('\U{2000}' <= c <= '\U{200A}')
    || c == '\U{2028}' || c == '\U{2029}' || c == '\U{202F}' || c == '\U{205F}' || c == '\U{3000}'
  }

  /** The index of the first non-space at or after `i` (or `|s|`). */
  function SkipSpaces(s: string, i: nat): (r: nat)
    requires i <= |s|
    ensures i <= r <= |s|
    ensures forall k :: i <= k < r ==> IsSpace(s[k])
    ensures r < |s| ==> !IsSpace(s[r])
    decreases |s| - i
  {
    if i < |s| && IsSpace(s[i]) then SkipSpaces(s, i + 1) else i
  }

  /** The index just past the last non-space before `j` (or 0). */
  function SkipSpacesBack(s: string, j: nat): (r: nat)
    requires j <= |s|
    ensures r <= j
    ensures forall k :: r <= k < j ==> IsSpace(s[k])
    ensures r > 0 ==> !IsSpace(s[r - 1])
  {
    if j > 0 && IsSpace(s[j - 1]) then SkipSpacesBack(s, j - 1) else j
  }

  /** Where the stripped text starts inside `s`. */
  function Lead(s: string): nat
    ensures Lead(s) <= |s|
  {
    SkipSpaces(s, 0)
  }

  /** Python's `s.strip()`: the infix of `s` left after removing whitespace at both ends. */
  function Strip(s: string): (r: string)
    ensures Lead(s) + |r| <= |s| && r == s[Lead(s)..Lead(s) + |r|]
    ensures forall k :: 0 <= k < Lead(s) ==> IsSpace(s[k])
    ensures forall k :: Lead(s) + |r| <= k < |s| ==> IsSpace(s[k])
    ensures r == [] || (!IsSpace(r[0]) && !IsSpace(r[|r| - 1]))
  {
    var i := SkipSpaces(s, 0);
    var j := SkipSpacesBack(s, |s|);
    if i < j then s[i..j] else []
  }

  /** Python's `s.startswith(p)`. */
  predicate StartsWith(s: string, p: string) {
    |p| <= |s| && s[..|p|] == p
  }

  /** A string already free of surrounding whitespace is left alone by `Strip`. */
  lemma {:induction false} StripKeepsTrimmed(s: string)
    requires s == [] || (!IsSpace(s[0]) && !IsSpace(s[|s| - 1]))
    ensures Strip(s) == s
  {
    if s != [] {
      assert SkipSpaces(s, 0) == 0 && SkipSpacesBack(s, |s|) == |s|;
      assert s[0..|s|] == s;
    }
  }

  /** Stripping twice is stripping once. */
  lemma {:induction false} StripIdempotent(s: string)
    ensures Strip(Strip(s)) == Strip(s)
  {
    StripKeepsTrimmed(Strip(s));
  }

  predicate IsDigit(c: char) {
    '0' <= c <= '9'
  }

  function DigitChar(d: nat): (c: char)
    requires d < 10
    ensures IsDigit(c)
  {
    ['0', '1', '2', '3', '4', '5', '6', '7', '8', '9'][d]
  }

  function DigitValue(c: char): (d: nat)
    requires IsDigit(c)
    ensures d < 10
  {
    (c as int - '0' as int) as nat
  }

  /** The decimal text Python produces for a non-negative `int`, with no leading zeros. */
  function NatToString(n: nat): (r: string)
    ensures |r| >= 1
    ensures forall k :: 0 <= k < |r| ==> IsDigit(r[k])
    ensures r[0] == '0' ==> n == 0
  {
    if n < 10 then [DigitChar(n)] else NatToString(n / 10) + [DigitChar(n % 10)]
  }

  /** The end of the run of decimal digits that starts at `i`. */
  function DigitsEnd(s: string, i: nat): (r: nat)
    requires i <= |s|
    ensures i <= r <= |s|
    ensures forall k :: i <= k < r ==> IsDigit(s[k])
    ensures r < |s| ==> !IsDigit(s[r])
    decreases |s| - i
  {
    if i < |s| && IsDigit(s[i]) then DigitsEnd(s, i + 1) else i
  }

  /** Reads a string of decimal digits back as a number. */
  function ParseDigits(s: string): (n: nat)
    requires forall k :: 0 <= k < |s| ==> IsDigit(s[k])
  {
    if s == [] then 0 else 10 * ParseDigits(s[..|s| - 1]) + DigitValue(s[|s| - 1])
  }

  /** The decimal rendering loses nothing: reading it back gives the number. */
  lemma {:induction false} NatToStringRoundTrip(n: nat)
    ensures ParseDigits(NatToString(n)) == n
  {
    if n >= 10 {
      var r := NatToString(n);
      assert r[..|r| - 1] == NatToString(n / 10);
      NatToStringRoundTrip(n / 10);
    }
  }
  /** A number written between `prefix` and a line break reads back from the digit run after `prefix`. */
  lemma NumberReadsBack(prefix: string, n: nat, rest: string)
    ensures var s := prefix + NatToString(n) + "\n" + rest;
            && StartsWith(s, prefix)
            && DigitsEnd(s, |prefix|) == |prefix| + |NatToString(n)|
            && ParseDigits(s[|prefix|..DigitsEnd(s, |prefix|)]) == n
  {
    var digits := NatToString(n);
    var s := prefix + digits + "\n" + rest;
    var end := |prefix| + |digits|;
    assert s[..|prefix|] == prefix;
    assert forall k :: |prefix| <= k < end ==> s[k] == digits[k - |prefix|];
    assert s[end] == '\n';
    assert forall k :: |prefix| <= k < end ==> IsDigit(s[k]);
    assert !IsDigit(s[end]);
    assert s[|prefix|..end] == digits;
    NatToStringRoundTrip(n);
  }
}

=== FILE: webhook_handler.dfy ===
/**
 * The forwarding bridge to the external automation webhook: it turns a chat
 * event into the outbound payload and posts it, accepts messages coming back
 * for delivery to a chat, and keeps two counters of both directions.
 */
module WebhookHandler {
  import opened Wrappers
  import opened Http
  import opened Events
  import Text

  datatype Stats = Stats(
    sentToN8n: nat,
    receivedFromN8n: nat,
    lastN8nSend: Option<Timestamp>,
    lastN8nReceive: Option<Timestamp>)

  /** A handler holds the destination URL (empty when none is configured) and its counters. */
  datatype Handler = Handler(url: string, stats: Stats)

  const InitialStats: Stats := Stats(0, 0, None, None)

  /** `__init__`: the configured URL, both counters at zero and no times yet. */
  function NewHandler(url: string): Handler {
    Handler(url, InitialStats)
  }

  /** `if not self.n8n_webhook_url` fails exactly for the empty string. */
  predicate Configured(h: Handler) {
    h.url != ""
  }

  /** Counters only go up. */
  ghost predicate Grows(s: Stats, s': Stats) {
    s.sentToN8n <= s'.sentToN8n && s.receivedFromN8n <= s'.receivedFromN8n
  }

  lemma GrowsTransitive(s1: Stats, s2: Stats, s3: Stats)
    requires Grows(s1, s2) && Grows(s2, s3)
    ensures Grows(s1, s3)
  {
  }

  // ----- outbound: chat event -> webhook -----

  datatype EventData = EventData(
    text: string,
    chatId: string,
    userName: string,
    userId: string,
    timestamp: int,
    msgId: string,
    callbackData: Option<string>)

  datatype WebhookPayload = WebhookPayload(timestamp: Timestamp, source: string, eventType: string, data: EventData)

  const Source: string := "vk_teams"

  /** The type the bridge reports; unlike the polling loop it defaults to `new_message`. */
  function ForwardedType(e: Event): string {
    e.kind.GetOr("new_message")
  }

  /** The outbound payload for an event, built at clock reading `now`. */
  function Normalize(e: Event, now: Timestamp): (p: WebhookPayload)
    ensures p.source == "vk_teams" && p.timestamp == now
    ensures p.eventType == (if e.kind.Some? then e.kind.value else "new_message")
    ensures e.kind == Some(CallbackQuery) ==> p.data.chatId == CallbackChatIdOf(e)
    ensures e.kind != Some(CallbackQuery) ==> p.data.chatId == ChatIdOf(e)
    ensures p.data.userName == Text.Strip(e.payload.firstName.GetOr("") + " " + e.payload.lastName.GetOr(""))
    ensures p.data.text == e.payload.text.GetOr("") && p.data.userId == e.payload.userId.GetOr("")
    ensures p.data.msgId == e.payload.msgId.GetOr("") && p.data.timestamp == e.payload.timestamp.GetOr(0)
    ensures p.data.callbackData == e.payload.callbackData
  {
    var eventType := ForwardedType(e);
    var chatId := if eventType == CallbackQuery then CallbackChatIdOf(e) else ChatIdOf(e);
    WebhookPayload(now, Source, eventType,
      EventData(TextOf(e), chatId, UserNameOf(e), UserIdOf(e),
                e.payload.timestamp.GetOr(0), e.payload.msgId.GetOr(""), e.payload.callbackData))
  }

  datatype ForwardResult = ForwardResult(handler: Handler, sent: bool, posted: Option<WebhookPayload>)

  /** `send_to_n8n_webhook`: posts the normalised event when a URL is configured; only an
      answer with status 200 counts as sent and updates the counter and its time. */
  function SendToWebhook(h: Handler, e: Event, now: Timestamp, outcome: Outcome<()>): (r: ForwardResult)
    ensures !Configured(h) ==> r.posted.None? && !r.sent && r.handler == h
    ensures Configured(h) ==> r.posted == Some(Normalize(e, now))
    ensures r.sent <==> Configured(h) && outcome.IsOk()
    ensures r.handler.url == h.url
    ensures r.sent ==> r.handler.stats == h.stats.(sentToN8n := h.stats.sentToN8n + 1, lastN8nSend := Some(now))
    ensures !r.sent ==> r.handler == h
  {
    if !Configured(h) then ForwardResult(h, false, None)
    else
      var payload := Normalize(e, now);
      if outcome.IsOk() then
        var stats := h.stats.(sentToN8n := h.stats.sentToN8n + 1, lastN8nSend := Some(now));
        ForwardResult(h.(stats := stats), true, Some(payload))
      else
        ForwardResult(h, false, Some(payload))
  }

  // ----- inbound: webhook -> chat -----

  /** The body of a request to deliver a message to a chat; the keyboard is opaque here. */
  datatype IncomingMessage = IncomingMessage(
    chatId: string,
    message: string,
    messageType: string,
    inlineKeyboardMarkup: Option<string>)

  /** The acceptance record, or the error record of the handler's exception path. */
  datatype Acceptance =
    | Accepted(chatId: string, message: string, messageType: string, timestamp: Timestamp, messageLength: nat)
    | Rejected(error: string, timestamp: Timestamp)

  datatype AcceptResult = AcceptResult(handler: Handler, record: Acceptance)

  /** `process_incoming_webhook`: counts the message and echoes it back with its length.
      No field is validated, so an empty chat id or message is accepted too. */
  function ProcessIncoming(h: Handler, m: IncomingMessage, now: Timestamp): (r: AcceptResult)
    ensures r.record == Accepted(m.chatId, m.message, m.messageType, now, |m.message|)
    ensures r.handler.url == h.url
    ensures r.handler.stats.receivedFromN8n == h.stats.receivedFromN8n + 1
    ensures r.handler.stats.lastN8nReceive == Some(now)
    ensures r.handler.stats.sentToN8n == h.stats.sentToN8n
    ensures r.handler.stats.lastN8nSend == h.stats.lastN8nSend
  {
    var stats := h.stats.(receivedFromN8n := h.stats.receivedFromN8n + 1, lastN8nReceive := Some(now));
    AcceptResult(h.(stats := stats), Accepted(m.chatId, m.message, m.messageType, now, |m.message|))
  }

  datatype StatsReport = StatsReport(configured: bool, url: string, handlerStatus: string, stats: Stats)

  /** `get_webhook_stats`: whether a URL is set, the URL or a placeholder, and a copy of the counters. */
  function GetWebhookStats(h: Handler): (r: StatsReport)
    ensures r.configured <==> h.url != ""
    ensures r.configured ==> r.url == h.url
    ensures !r.configured ==> r.url == "Not configured"
    ensures r.handlerStatus == "active" && r.stats == h.stats
  {
    StatsReport(h.url != "", if h.url != "" then h.url else "Not configured", "active", h.stats)
  }
}

=== FILE: wrappers.dfy ===
/** A value that may be absent: a JSON key that was not sent, an optional argument, a bot that is not wired. */
module Wrappers {

  datatype Option<+T> = None | Some(value: T) {

    /** The value, or `default` when absent (Python's `d.get(key, default)`). */
    function GetOr(default: T): (r: T)
      ensures Some? ==> r == value
      ensures None? ==> r == default
    {
      match this
      case Some(v) => v
      case None => default
    }
  }
}
